=== FILE: README.md ===
# aggre-git core, modelled in Dafny

aggre-git collects GitHub activity for a set of users. The scripts around
its data are I/O. Three pure transformations sit inside them, and this
project models those three and proves properties about them.

- **The pull-request report** (`aggregit/pr_report.py`, module `PrReport`).
  - It picks the repositories: every repository of an owner, or the
    configured paths resolved eagerly, where one bad path is fatal.
  - It keeps the pull requests opened by the configured users.
  - `to_row` turns each one into a row. A row is 19 business columns plus
    a count per review state, zero-filled over the state domain.
  - A pull request whose row cannot be built is skipped and logged.
  - The rows are written under a header of the 19 columns followed by the
    state domain. A row with a column outside the header makes
    `csv.DictWriter` raise.
- **The per-user totals sample** (`aggregit/sample/overall.py`, module
  `Overall`).
  - Only the first configured username is used.
  - It counts that user's pull requests, then that user's commits inside
    them, then the file additions and deletions of those commits.
  - The counters restart for every repository, so the totals printed at
    the end are those of the last repository. The model keeps this
    behaviour.
- **The commit-chain walks** (`aggregit/sample/repos/branches.py`, module
  `Branches`).
  - Both walks recurse depth-first into the parents with no visited set.
  - Their output is therefore the pre-order listing of the commit graph
    unfolded into a tree.
  - The short walk labels each commit with a depth and a path letter. It
    fails once the letter number passes the 26 letters of the alphabet.

Supporting modules:

- `Wrappers` holds `Option` and `Result`.
- `Text` holds the string helpers the scripts rely on: decimal rendering,
  right alignment, `str.join` and newline flattening.
- `Api` holds the input records that stand in for the platform's objects:
  repositories, pull requests, commits and files. Each is pre-fetched, so a
  listing is a sequence and a lookup is a map.

Calls into code that is not part of this model become input fields:

- `Pull.summary` stands for everything `to_row` reads through the
  `PullRequest` model class. It holds either the values the accessors
  return, or a `Fault`. A `Fault` stands for an exception raised anywhere in
  `to_row`. That includes the model class and the raw attributes read
  lazily from the platform, such as `pr.deletions` or `repo.html_url`.
- `lib.display` results are display strings stored in the records.
- `Review.get_states()` is the `domain` parameter.

## Model

| member | source | states |
|---|---|---|
| PrReport.Header | aggregit/pr_report.py:119-126 | The header has 19 + \|domain\| columns. The first 19 are the business columns in the script's order, and the rest are the domain's states in order. A column is in the header exactly when it is a business column or a state of the domain. |
| PrReport.FixedTitles | aggregit/pr_report.py:119-125 | The i-th business column carries the i-th title of the script's list, from "Repo Owner" to "Reviewers". |
| PrReport.HeaderTitles | aggregit/pr_report.py:119-125 | The header's first 19 titles are "Repo Owner", "Repo Name", "Repo URL", … "Merged By", "Reviewers", in the script's order. |
| PrReport.HeaderStateTitles | aggregit/pr_report.py:126 | After the business titles, the header names each review state of the domain, in order. |
| PrReport.FixedColumnsAreTheBusinessColumns | aggregit/pr_report.py:119-125 | The fixed part of the header lists every business column, and nothing else. |
| PrReport.PrId | aggregit/pr_report.py:50 | 'PR ID' is "#" followed by decimal digits with no leading zero, and those digits read back as the pull request's number. |
| Text.ParseNatToString | aggregit/pr_report.py:50 | Rendering a number in decimal and reading it back gives the number. |
| Text.NatToStringInjective | aggregit/pr_report.py:50 | Different numbers get different decimal renderings, so different pull requests get different ids. |
| Text.Join | aggregit/pr_report.py:62 | `str.join` of no parts is empty, and of one part is that part. The last part always ends the result. |
| Text.JoinLength | aggregit/pr_report.py:62 | The joined length is the total length of the parts plus one separator per neighbouring pair. |
| Text.JoinIsEmpty | aggregit/pr_report.py:62 | With ", " as separator, 'Reviewers' is empty exactly when there are no reviewer names or a single empty one. |
| PrReport.Tally | aggregit/pr_report.py:72 | `Counter` has exactly the states that occur as keys, each mapped to its number of occurrences. |
| PrReport.ZeroFill | aggregit/pr_report.py:73 | `setdefault(s, 0)` over the domain adds every domain state, gives the added ones 0, and never overwrites an existing count. |
| PrReport.ReviewCounts | aggregit/pr_report.py:72-74 | The counts cover the seen states plus the domain. Every count is the number of reviews in that state. |
| PrReport.CountsSumToReviews | aggregit/pr_report.py:72-73 | Summed over the row's states, each taken once, the counts give the number of reviews. |
| PrReport.ToRow | aggregit/pr_report.py:42-76 | Building a row fails exactly when the pull request's summary is a fault, and with the same fault. A fault stands for any exception raised while building the row. |
| PrReport.ToRowCells | aggregit/pr_report.py:44-69 | Proof step toward ToRowColumnCells. A built row holds the repository's owner, name and url, the author, "#"+number as id, and the model's title, url, status, status date, update and creation dates, commit, file and comment counts, additions, deletions and merger. 'Changed Lines' is the additions plus the raw deletions. 'Reviewers' is the reviewer names joined by ", ". |
| PrReport.CellFields | aggregit/pr_report.py:44-52 | Proof step toward ToRowColumnCells. Looking up 'Repo Owner', 'Repo Name', 'Repo URL', 'Author', 'PR ID', 'PR Title' or 'PR URL' in the row dictionary gives that column's field. |
| PrReport.CellStatusFields | aggregit/pr_report.py:54-62 | Proof step toward ToRowColumnCells. Looking up 'Created At', 'Updated At', 'Status', 'Status Changed At', 'Merged By' or 'Reviewers' gives that column's field, with a missing date or merger as `None`. |
| PrReport.CellNumberFields | aggregit/pr_report.py:64-69 | Proof step toward ToRowColumnCells. Looking up 'Comments', 'Commits', 'Changed Files', 'Added Lines', 'Deleted Lines' or 'Changed Lines' gives that column's number. |
| PrReport.CellCounts | aggregit/pr_report.py:72-74 | Proof step toward ToRowColumnCells. Looking a counted review state up in the row dictionary gives that state's count. |
| PrReport.ToRowColumnCells | aggregit/pr_report.py:44-74 | Under each key, the row dictionary holds the value `to_row` assigns: 'Repo Owner' the owner's display, 'Repo Name' the name, 'Repo URL' the url, 'Author' the author's display, 'PR ID' "#"+number, the model's values for the other business columns, the additions plus the raw deletions under 'Changed Lines', the reviewer names joined by ", " under 'Reviewers', and for each domain state the number of reviews in it. |
| PrReport.ToRowFields | aggregit/pr_report.py:44-74 | A built row has "#"+number as its id. 'Changed Lines' is the model's additions plus the raw pull request's deletions, so it equals 'Added Lines' + 'Deleted Lines' exactly when the two deletion counts agree. 'Reviewers' is empty exactly when there are no reviewer names or a single empty one. Every domain state is present, at 0 when no review has it, and every count is the multiset count of the review states. |
| PrReport.RowFitsHeader | aggregit/pr_report.py:119-131 | A built row lacks no header column. It has no column outside the header exactly when all of its review states are in the domain. |
| Api.PullsIn | aggregit/pr_report.py:103 | `get_pulls(state=...)` lists exactly the repository's pull requests in that state. With every state it lists all of them. |
| Api.FilterStateAppend | aggregit/pr_report.py:103 | The state filter keeps listing order: filtering a concatenation filters each part and keeps the parts in order. |
| Api.FilterStateSingle | aggregit/pr_report.py:103 | A single pull request is kept exactly when it is in the requested state. |
| PrReport.BadPathMessage | aggregit/pr_report.py:96 | The "Bad repo path" message ends with the offending path. |
| PrReport.ResolvePaths | aggregit/pr_report.py:89-97 | Resolution succeeds exactly when every path is known, and then gives the repositories in path order. Otherwise the error names the first unknown path with its "Bad repo path" message, and every earlier path resolved. |
| PrReport.ResolveRepos | aggregit/pr_report.py:85-97 | In owner mode the run has that owner's repositories, or fails when the owner is unknown. In path mode it succeeds exactly when every path resolves, and otherwise fails with a path-mode error naming a configured, unknown path. |
| PrReport.MatchesInAppend | aggregit/pr_report.py:103-106 | Within one repository the considered pull requests keep listing order: a concatenated listing yields the first part's matches, then the second's. |
| PrReport.MatchesInSingle | aggregit/pr_report.py:104-106 | A single listed pull request is considered exactly when its author's login is configured. |
| PrReport.MatchesInMembers | aggregit/pr_report.py:103-106 | Within one repository, a pull request is considered exactly when it is listed and its author's login is configured. |
| PrReport.MatchesAllMembers | aggregit/pr_report.py:100-106 | Across repositories, a pull request is considered exactly when its repository is covered, it is listed in the configured state, and its author's login is configured. |
| PrReport.MatchesAllAppend | aggregit/pr_report.py:100-103 | Considered pull requests come repository by repository: a concatenation of repository lists yields the first list's matches, then the second's. |
| PrReport.RowCount | aggregit/pr_report.py:108-117 | The number of rows is the number considered minus the number skipped. |
| PrReport.NoSkips | aggregit/pr_report.py:108-117 | Nothing is skipped exactly when every considered pull request's model builds. |
| PrReport.OutcomesAppend | aggregit/pr_report.py:100-117 | Rows and skips of a concatenation are those of each part in order. |
| PrReport.FailureIsSkipped | aggregit/pr_report.py:108-117 | A failing pull request is left out of the rows while every row before and after it stays, in order. Its number and fault are logged in its place. |
| PrReport.CollectRepo | aggregit/pr_report.py:103-117 | The per-repository loop collects exactly the rows and skips of that repository's considered pull requests. |
| PrReport.CollectRows | aggregit/pr_report.py:100-117 | The main loop collects the rows and skips of all considered pull requests in repository-then-listing order. Rows plus skips number exactly the considered pull requests. |
| PrReport.Keys | aggregit/pr_report.py:44-74 | A row's keys are the business columns plus one column per counted review state. |
| PrReport.ExtraColumns | aggregit/pr_report.py:129-131 | The extra fields are the row's keys missing from the header. There are none exactly when the row fits the header. |
| PrReport.WriteRows | aggregit/pr_report.py:131 | `writerows` succeeds exactly when every row fits the header, and then gives one line per row, in order. |
| PrReport.WriteRowsError | aggregit/pr_report.py:131 | A failing `writerows` names a row that does not fit, with that row's extra fields. |
| PrReport.WriteRowsErrorFirst | aggregit/pr_report.py:131 | Every row before the one named by the error fits the header. |
| PrReport.WriteCsv | aggregit/pr_report.py:128-131 | The table is the header line and then one line per row exactly when all rows fit. Otherwise the error is ExtraFields for some row. |
| PrReport.WriteCsvError | aggregit/pr_report.py:128-131 | The ExtraFields error names the first row that does not fit, with its nonempty set of extra columns. |
| PrReport.ReadLine | aggregit/pr_report.py:131 | Reading a written line back against the header gives each header column with the row's cell. |
| PrReport.CsvRoundTrip | aggregit/pr_report.py:128-131 | When every row's keys are exactly the header's columns, writing succeeds. Reading each line back gives each row's dictionary, in order. |
| PrReport.Run | aggregit/pr_report.py:79-131 | A repository error ends the run before any pull request is considered. Once the repositories resolve, the run succeeds exactly when every built row fits the header. A successful run writes the header line, then the line of each row in repository-then-listing order, and logs exactly the failed pull requests. Any other failure is an extra-fields error from writing. |
| Overall.TallyFiles | aggregit/sample/overall.py:77-89 | The file loop adds up the additions and the deletions of the files. |
| Overall.TallyCommits | aggregit/sample/overall.py:56-89 | The commit loop counts the commits authored by the login, and adds up the files of those commits only. |
| Overall.TallyRepo | aggregit/sample/overall.py:32-89 | Starting from zero, the pull-request loop yields the repository's totals as defined by the authored pull requests and counted commits. |
| Overall.OverRepos | aggregit/sample/overall.py:24-35 | The repository loop succeeds exactly when every path resolves and some totals exist. It then gives the totals of the last repository's open pull requests. An unknown-repository error names a configured path that does not resolve. |
| Overall.FirstUnknownRepo | aggregit/sample/overall.py:24-25 | When some path does not resolve, the loop fails with UnknownRepo for the first such path, and every earlier path resolved. |
| Overall.Overall | aggregit/sample/overall.py:22-106 | No username fails first. Then an unknown path fails with UnknownRepo for the first unknown path. With no repositories the totals are undefined. Otherwise the result is the first username's totals for the last repository, exactly when every path resolves. |
| Overall.RunOverall | aggregit/sample/overall.py:22-106 | The script's loop computes exactly that result. |
| Overall.OnlyFirstUsername | aggregit/sample/overall.py:22 | Username lists with the same first entry give the same result. |
| Overall.LastRepoWins | aggregit/sample/overall.py:24-35 | Earlier repositories that resolve do not change the totals. Only the last one counts. |
| Overall.CommitlessPullCountsOnce | aggregit/sample/overall.py:44-56 | A pull request by the login with a zero commit count adds one pull request and nothing else. |
| Overall.OtherAuthorsIgnored | aggregit/sample/overall.py:44 | A pull request by anyone else leaves the totals unchanged, whatever its commits. |
| Overall.CommitsByMembers | aggregit/sample/overall.py:59-60 | A commit is counted exactly when it has an author and the author's login is the login. |
| Overall.CountedCommitsAreAuthored | aggregit/sample/overall.py:55-60 | Every counted commit is authored by the login. It comes from a pull request opened by the login whose commit count is not zero. |
| Overall.AuthoredCount | aggregit/sample/overall.py:44-45 | The pull-request count is the number of listed pull requests whose author is the login. |
| Text.NewlinesToTabs | aggregit/sample/repos/branches.py:35 | The flattened message has the same length, no newline, a tab where each newline was, and every other character unchanged. |
| Branches.FileNames | aggregit/sample/repos/branches.py:67 | The listing has every file's name, in order. |
| Branches.Describe | aggregit/sample/repos/branches.py:24-71 | A commit's report shows its sha, url, date and stats, its author's login or "NO AUTHOR", and its message with newlines turned into tabs. It shows "No files on commit" exactly when the commit has no files. Otherwise it shows all file names and the first file's details: name, blob url, date, status and change counts. |
| Branches.Detailed | aggregit/sample/repos/branches.py:53-79 | The detailed walk reports the commit itself first. |
| Branches.DetailedIsPreOrder | aggregit/sample/repos/branches.py:53-79 | The detailed walk reports exactly the commits of the pre-order listing, in order. |
| Branches.PreOrderSound | aggregit/sample/repos/branches.py:78-79 | Every listed path is a parent path of the graph, and leads to the commit listed with it. |
| Branches.PreOrderComplete | aggregit/sample/repos/branches.py:78-79 | Every parent path of the graph is listed. |
| Branches.EachPathListedOnce | aggregit/sample/repos/branches.py:78-79 | Each parent path is listed exactly once, so a commit reachable along n paths is listed n times. |
| Branches.PreOrderSorted | aggregit/sample/repos/branches.py:64-79 | The listed paths are strictly increasing in lexicographic order. A commit comes before its ancestors, and parents' subtrees come in parent-list order. |
| Branches.CommitBeforeAncestors | aggregit/sample/repos/branches.py:64-79 | A commit is listed before every commit reached through it. |
| Branches.StopsAtRoots | aggregit/sample/repos/branches.py:78-79 | The walk reports only the commit itself exactly when the commit has no parents. |
| Branches.SharedAncestorReportedTwice | aggregit/sample/repos/branches.py:78-79 | In a merge whose two parents share their parent, the shared commit is reported once under each parent. |
| Branches.Letter | aggregit/sample/repos/branches.py:89 | A path letter is an upper-case letter. |
| Branches.EntryFields | aggregit/sample/repos/branches.py:87-90 | An entry holds the commit's sha, the depth, the letter `ascii_uppercase[index]` and the message with newlines turned into tabs. |
| Branches.ShortLineFields | aggregit/sample/repos/branches.py:88-91 | The printed line is the sha, "depth " with the depth right-aligned in three places, "path " with the letter, and the message, joined by " \| ". |
| Text.JoinFour | aggregit/sample/repos/branches.py:91 | Joining four parts puts the separator between each neighbouring pair. |
| Branches.ShortWalk | aggregit/sample/repos/branches.py:82-94 | With an index past the alphabet the walk fails before printing anything. Otherwise its first line is the commit's own entry at the given depth and index. |
| Branches.LabelledAppend | aggregit/sample/repos/branches.py:93-94 | Labelling a concatenation prints the first part's lines, then the second's, unless the first part fails. |
| Branches.LabelledUnder | aggregit/sample/repos/branches.py:93-94 | Walking parent i one level down is labelling its subtree with depth + 1 and index + i. |
| Branches.ShortWalkIsLabelled | aggregit/sample/repos/branches.py:82-94 | The short walk prints the pre-order listing. Each visit's depth is the head's depth plus its path length, and its index is the head's index plus the sum of its path. |
| Branches.LabelledShape | aggregit/sample/repos/branches.py:89-94 | Labelling prints one line per visit up to the first visit with no letter. It fails exactly when such a visit exists. |
| Branches.ShortTraversal | aggregit/sample/repos/branches.py:82-94 | From the head, a visit at path p has depth 1 + \|p\| and letter number Sum(p). The walk fails with an index error exactly when some letter number reaches 26, and stops there. Otherwise it prints every visit. |
| Branches.ParentLabel | aggregit/sample/repos/branches.py:93-94 | The i-th parent's letter number is its child's plus i. |
| Text.PadLeft | aggregit/sample/repos/branches.py:88 | `{depth:3}` right-aligns in at least three places. It pads with spaces on the left and never truncates. |

## Left out

- Network access through PyGithub (`get_user`, `get_repo`, `get_repos`, `get_pulls`, `get_commits`, `get_comments`, `get_branches`). These become pre-fetched sequences and maps. A failed lookup becomes an explicit error value.
- The `PullRequest` and `Review` model classes and `lib.display` are not part of this model. Their results are input fields, and their rules are not derived.
- `Review.get_states()` is the `domain` parameter. Nothing is assumed about it, not even that its states are distinct.
- PrReport.ToRow: every exception `to_row` can raise is carried by the pull request's summary. The model does not say which attribute raised it.
- PrReport.ToRow: review-state counts are kept apart from the business columns. Python's `dict.update` would let a review state named exactly like a business column title (for instance "Status") overwrite that column.
- PrReport.ResolveRepos: in owner mode an unknown owner is the error `UnknownOwner`. It stands for whatever the platform raises there.
- PrReport.Run: when writing fails, the header and the rows before the bad one are already in the file. The model returns only the error.
- CSV quoting, escaping and the file itself belong to Python's `csv` library. A line is modelled as the sequence of its cells. Python's `None` is the cell `Null`, which `csv` writes as an empty field.
- The progress lines the scripts print ("Fetching repo", "REPO:", "PR #", the logged exception text, the per-commit dumps in the totals sample) are not modelled. A skip is recorded as the pull request's number and its fault.
- Branches.Describe: the commit's url, date and stats and the first file's name, blob url, date, status and change counts are carried as records. The exact print layout of those lines is not modelled.
- `time.sleep(1)` pacing in the detailed walk, and `lib.parse_datetime` in the totals sample, are left out because they have no effect on the data. The commit comments the totals sample fetches only for printing are left out too.
- `main` of the branches sample, which picks the first branch of a fixed repository, is network glue and is not part of this model.
- `aggregit/etc/configlocal.template.py` holds plain constants. The configuration is the `Config` record, the username list and the path list passed as parameters.
- Python integers are unbounded, so no width or wrap-around is modelled.
- Branches.ShortTraversal: the model has no depth bound. CPython stops the recursion with RecursionError after about 1000 nested calls (the default recursion limit), so a first-parent chain that deep prints fewer lines and then fails, while the model prints every visit.
- Branches.DetailedIsPreOrder: the model has no depth bound. CPython's default recursion limit of about 1000 nested calls makes the detailed walk raise RecursionError on a chain that deep, while the model reports every visit.

=== FILE: api.dfy ===
/** Pre-fetched stand-ins for the hosting platform's objects. Every field is an
    input: whatever the API client or the (unmodelled) PullRequest model class
    would have computed is supplied here as a value. */
module Api {
  import opened Wrappers

  /** An exception: its type name and its message (`type(e).__name__`, `str(e)`). */
  datatype Fault = Fault(kind: string, message: string)

  /** One file of a commit's diff. */
  datatype FileChange = FileChange(
    filename: string,
    blobUrl: string,
    lastModified: string,
    status: string,
    additions: nat,
    deletions: nat,
    changes: nat)

  datatype CommitStats = CommitStats(additions: nat, deletions: nat, total: nat)

  /** A commit with its parents unfolded: a merge commit has two or more parents,
      and the same ancestor may appear under several of them. */
  datatype Commit = Commit(
    sha: string,
    url: string,
    authorLogin: Option<string>,   // None when the commit has no linked author
    lastModified: string,
    message: string,
    stats: CommitStats,
    files: seq<FileChange>,
    parents: seq<Commit>)

  /** What the PullRequest model class reports for one pull request. Status,
      status-change time, merger and reviewer names are derived there and are
      taken here as given. `reviewStates` holds the state of every review. */
  datatype PullSummary = PullSummary(
    number: nat,
    title: string,
    url: string,
    createdAt: string,
    updatedAt: string,
    status: string,
    statusChangedAt: Option<string>,
    mergedByName: Option<string>,
    reviewerNames: seq<string>,
    commentCount: nat,
    commitCount: nat,
    changedFiles: nat,
    additions: int,
    deletions: int,
    reviewStates: seq<string>)

  /** A raw pull request as listed for a repository. `summary` is the outcome of
      building its PullRequest model: a Failure is any exception raised while
      fetching or parsing its details. */
  datatype Pull = Pull(
    number: nat,
    title: string,
    isOpen: bool,
    authorLogin: string,
    authorDisplay: string,
    commitCount: nat,
    commits: seq<Commit>,
    deletions: int,
    summary: Result<PullSummary, Fault>)

  datatype Repo = Repo(
    name: string,
    fullName: string,
    htmlUrl: string,
    ownerDisplay: string,
    pulls: seq<Pull>)

  /** The `state` argument of a pull-request listing. */
  datatype PullState = Open | Closed | AllStates

  predicate InState(p: Pull, state: PullState) {
    match state
    case Open => p.isOpen
    case Closed => !p.isOpen
    case AllStates => true
  }

  function FilterState(ps: seq<Pull>, state: PullState): seq<Pull> {
    if ps == [] then []
    else FilterState(ps[..|ps| - 1], state) + (if InState(ps[|ps| - 1], state) then [ps[|ps| - 1]] else [])
  }

  /** `repo.get_pulls(state=...)`: the repository's pull requests in the
      requested state, in the platform's listing order. */
  function PullsIn(repo: Repo, state: PullState): (ps: seq<Pull>)
    ensures forall p :: p in ps <==> p in repo.pulls && InState(p, state)
    ensures state == AllStates ==> ps == repo.pulls
  {
    FilterStateMembers(repo.pulls, state);
    FilterState(repo.pulls, state)
  }

  lemma {:induction false} FilterStateMembers(ps: seq<Pull>, state: PullState)
    ensures forall p :: p in FilterState(ps, state) <==> p in ps && InState(p, state)
    ensures state == AllStates ==> FilterState(ps, state) == ps
  {
    if ps != [] {
      FilterStateMembers(ps[..|ps| - 1], state);
      assert ps == ps[..|ps| - 1] + [ps[|ps| - 1]];
    }
  }

  /** The filter keeps listing order: filtering a concatenation filters each
      part and keeps the parts in order. */
  lemma {:induction false} FilterStateAppend(a: seq<Pull>, b: seq<Pull>, state: PullState)
    ensures FilterState(a + b, state) == FilterState(a, state) + FilterState(b, state)
  {
    if b == [] {
      assert a + b == a;
    } else {
      assert (a + b)[..|a + b| - 1] == a + b[..|b| - 1];
      FilterStateAppend(a, b[..|b| - 1], state);
    }
  }

  /** A single pull request is kept exactly when it is in the requested state. */
  lemma FilterStateSingle(p: Pull, state: PullState)
    ensures FilterState([p], state) == if InState(p, state) then [p] else []
  {
    assert [p][..0] == [];
  }
}

=== FILE: branches.dfy ===
/** The commit-chain walks of the branches sample: from a head commit, report
    the commit and then walk each parent in turn, depth first. Nothing records
    which commits were already seen, so a commit reachable along several
    parent paths is reported once per path: the output is the pre-order
    listing of the commit graph unfolded into a tree. */
module Branches {
  import opened Wrappers
  import opened Text
  import opened Api

  // ---------------------------------------------------------------------------
  // Reference: the pre-order listing of parent paths
  // ---------------------------------------------------------------------------

  /** A position in the unfolded tree: the parent index taken at each step
      from the head, and the commit reached there. */
  datatype Visit = Visit(path: seq<nat>, node: Commit)

  /** Whether following the parent indices of `p` from `c` stays in the graph. */
  predicate ValidPath(c: Commit, p: seq<nat>)
    decreases |p|
  {
    p == [] || (p[0] < |c.parents| && ValidPath(c.parents[p[0]], p[1..]))
  }

  /** The commit reached from `c` along `p`. */
  function At(c: Commit, p: seq<nat>): Commit
    requires ValidPath(c, p)
    decreases |p|
  {
    if p == [] then c else At(c.parents[p[0]], p[1..])
  }

  /** Visits of a parent's subtree, seen from the child through parent `i`. */
  function Under(i: nat, vs: seq<Visit>): (ws: seq<Visit>)
    ensures |ws| == |vs|
    ensures forall k :: 0 <= k < |vs| ==> ws[k] == Visit([i] + vs[k].path, vs[k].node)
  {
    seq(|vs|, k requires 0 <= k < |vs| => Visit([i] + vs[k].path, vs[k].node))
  }

  /** The unfolded tree in pre-order: the commit, then the subtree of each
      parent in list order. */
  function PreOrder(c: Commit): seq<Visit>
    decreases c, 1
  {
    [Visit([], c)] + ParentVisits(c, 0)
  }

  /** The subtrees of the parents of `c` from position `from` on. */
  function ParentVisits(c: Commit, from: nat): seq<Visit>
    decreases c, 0, |c.parents| - from
  {
    if from >= |c.parents| then []
    else Under(from, PreOrder(c.parents[from])) + ParentVisits(c, from + 1)
  }

  /** Lexicographic order on paths, a path coming before its extensions. */
  predicate PathLess(a: seq<nat>, b: seq<nat>)
    decreases |a|
  {
    b != [] && (a == [] || a[0] < b[0] || (a[0] == b[0] && PathLess(a[1..], b[1..])))
  }

  predicate Sorted(vs: seq<Visit>) {
    forall i, j :: 0 <= i < j < |vs| ==> PathLess(vs[i].path, vs[j].path)
  }

  lemma {:induction false} PathLessIrreflexive(a: seq<nat>)
    ensures !PathLess(a, a)
    decreases |a|
  {
    if a != [] {
      PathLessIrreflexive(a[1..]);
    }
  }

  lemma {:induction false} PathLessAsymmetric(a: seq<nat>, b: seq<nat>)
    requires PathLess(a, b)
    ensures !PathLess(b, a)
    decreases |a|
  {
    if a != [] && a[0] == b[0] {
      PathLessAsymmetric(a[1..], b[1..]);
    }
  }

  /** A path comes before each of its proper extensions. */
  lemma {:induction false} PrefixIsLess(a: seq<nat>, b: seq<nat>)
    requires |a| < |b| && b[..|a|] == a
    ensures PathLess(a, b)
    decreases |a|
  {
    if a != [] {
      assert b[1..][..|a| - 1] == a[1..];
      PrefixIsLess(a[1..], b[1..]);
    }
  }

  lemma UnderKeepsOrder(i: nat, p: seq<nat>, q: seq<nat>)
    ensures PathLess([i] + p, [i] + q) <==> PathLess(p, q)
  {
    assert ([i] + p)[1..] == p;
    assert ([i] + q)[1..] == q;
  }

  lemma UnderSorted(i: nat, vs: seq<Visit>)
    requires Sorted(vs)
    ensures Sorted(Under(i, vs))
  {
    var ws := Under(i, vs);
    forall a, b | 0 <= a < b < |ws|
      ensures PathLess(ws[a].path, ws[b].path)
    {
      UnderKeepsOrder(i, vs[a].path, vs[b].path);
    }
  }

  /** Every path listed under parent position `from` or later starts with
      such a position, and the listing is sorted. */
  lemma {:induction false} ParentVisitsSorted(c: Commit, from: nat)
    ensures Sorted(ParentVisits(c, from))
    ensures forall k :: 0 <= k < |ParentVisits(c, from)| ==>
              ParentVisits(c, from)[k].path != [] && from <= ParentVisits(c, from)[k].path[0]
    decreases c, 0, |c.parents| - from
  {
    if from < |c.parents| {
      var head := Under(from, PreOrder(c.parents[from]));
      var rest := ParentVisits(c, from + 1);
      PreOrderSorted(c.parents[from]);
      UnderSorted(from, PreOrder(c.parents[from]));
      ParentVisitsSorted(c, from + 1);
      assert forall k :: 0 <= k < |head| ==> head[k].path[0] == from;
      forall a, b | 0 <= a < b < |head + rest|
        ensures PathLess((head + rest)[a].path, (head + rest)[b].path)
      {
        if b >= |head| && a < |head| {
          assert (head + rest)[b] == rest[b - |head|];
        }
      }
    }
  }

  /** Pre-order: the listed paths are strictly increasing, so a commit comes
      before every commit reached through it, and the subtrees of the parents
      come in the order of the parent list. */
  lemma {:induction false} PreOrderSorted(c: Commit)
    ensures Sorted(PreOrder(c))
    decreases c, 1
  {
    ParentVisitsSorted(c, 0);
    var rest := ParentVisits(c, 0);
    forall a, b | 0 <= a < b < |PreOrder(c)|
      ensures PathLess(PreOrder(c)[a].path, PreOrder(c)[b].path)
    {
      if a > 0 {
        assert PreOrder(c)[a] == rest[a - 1] && PreOrder(c)[b] == rest[b - 1];
      } else {
        assert PreOrder(c)[b] == rest[b - 1];
      }
    }
  }

  /** Every listed path leads from `c` to the commit listed with it. */
  lemma {:induction false} PreOrderSound(c: Commit)
    ensures forall k :: 0 <= k < |PreOrder(c)| ==>
              ValidPath(c, PreOrder(c)[k].path) && At(c, PreOrder(c)[k].path) == PreOrder(c)[k].node
    decreases c, 1
  {
    ParentVisitsSound(c, 0);
    var rest := ParentVisits(c, 0);
    assert forall k :: 1 <= k < |PreOrder(c)| ==> PreOrder(c)[k] == rest[k - 1];
  }

  lemma {:induction false} ParentVisitsSound(c: Commit, from: nat)
    ensures forall k :: 0 <= k < |ParentVisits(c, from)| ==>
              ValidPath(c, ParentVisits(c, from)[k].path) &&
              At(c, ParentVisits(c, from)[k].path) == ParentVisits(c, from)[k].node
    decreases c, 0, |c.parents| - from
  {
    if from < |c.parents| {
      var sub := PreOrder(c.parents[from]);
      var head := Under(from, sub);
      var rest := ParentVisits(c, from + 1);
      PreOrderSound(c.parents[from]);
      ParentVisitsSound(c, from + 1);
      forall k | 0 <= k < |head|
        ensures ValidPath(c, head[k].path) && At(c, head[k].path) == head[k].node
      {
        assert head[k].path[1..] == sub[k].path;
      }
      assert forall k :: 0 <= k < |head + rest| ==> (head + rest)[k] == if k < |head| then head[k] else rest[k - |head|];
    }
  }

  /** Every path of the graph is listed: the position where it is. */
  lemma {:induction false} PreOrderComplete(c: Commit, p: seq<nat>) returns (k: nat)
    requires ValidPath(c, p)
    ensures k < |PreOrder(c)| && PreOrder(c)[k].path == p
    decreases c, 1
  {
    if p == [] {
      k := 0;
    } else {
      var j := ParentVisitsComplete(c, 0, p);
      k := j + 1;
    }
  }

  lemma {:induction false} ParentVisitsComplete(c: Commit, from: nat, p: seq<nat>) returns (k: nat)
    requires p != [] && from <= p[0] && ValidPath(c, p)
    ensures k < |ParentVisits(c, from)| && ParentVisits(c, from)[k].path == p
    decreases c, 0, |c.parents| - from
  {
    var head := Under(from, PreOrder(c.parents[from]));
    if p[0] == from {
      var j := PreOrderComplete(c.parents[from], p[1..]);
      assert head[j].path == [from] + p[1..] == p;
      k := j;
    } else {
      var j := ParentVisitsComplete(c, from + 1, p);
      k := |head| + j;
    }
  }

  /** No deduplication: each path of the graph is listed exactly once, so a
      commit reachable along n paths is listed n times. */
  lemma EachPathListedOnce(c: Commit, p: seq<nat>) returns (k: nat)
    requires ValidPath(c, p)
    ensures k < |PreOrder(c)| && PreOrder(c)[k].path == p
    ensures forall j :: 0 <= j < |PreOrder(c)| && PreOrder(c)[j].path == p ==> j == k
  {
    k := PreOrderComplete(c, p);
    PreOrderSorted(c);
    forall j | 0 <= j < |PreOrder(c)| && PreOrder(c)[j].path == p
      ensures j == k
    {
      PathLessIrreflexive(p);
    }
  }

  /** A commit is listed before every commit reached through it. */
  lemma CommitBeforeAncestors(c: Commit, i: nat, j: nat)
    requires i < |PreOrder(c)| && j < |PreOrder(c)|
    requires |PreOrder(c)[i].path| < |PreOrder(c)[j].path|
    requires PreOrder(c)[j].path[..|PreOrder(c)[i].path|] == PreOrder(c)[i].path
    ensures i < j
  {
    var vs := PreOrder(c);
    PreOrderSorted(c);
    PrefixIsLess(vs[i].path, vs[j].path);
    if j < i {
      PathLessAsymmetric(vs[j].path, vs[i].path);
    }
  }

  lemma {:induction false} ParentVisitsEmpty(c: Commit, from: nat)
    ensures ParentVisits(c, from) == [] <==> from >= |c.parents|
    decreases |c.parents| - from
  {
    if from < |c.parents| {
      assert |PreOrder(c.parents[from])| >= 1;
    }
  }

  /** The walk stops exactly at commits without parents. */
  lemma StopsAtRoots(c: Commit)
    ensures |PreOrder(c)| == 1 <==> c.parents == []
  {
    ParentVisitsEmpty(c, 0);
  }

  // ---------------------------------------------------------------------------
  // traverse_commits_detailed
  // ---------------------------------------------------------------------------

  /** The file part of a commit's report: all file names and the first file's
      details, or the "No files on commit" notice. */
  datatype FilesShown = NoFilesOnCommit | FileListing(names: seq<string>, first: FileChange)

  /** What display_commit and the file report show for one commit. */
  datatype CommitDetail = CommitDetail(
    sha: string,
    url: string,
    author: string,
    lastModified: string,
    message: string,
    stats: CommitStats,
    files: FilesShown)

  const NoAuthor: string := "NO AUTHOR"

  function FileNames(files: seq<FileChange>): (names: seq<string>)
    ensures |names| == |files| && forall i :: 0 <= i < |files| ==> names[i] == files[i].filename
  {
    seq(|files|, i requires 0 <= i < |files| => files[i].filename)
  }

  /** One commit's report: its author's login or "NO AUTHOR", its message on
      one line, and the file listing with the first file's details. */
  function Describe(c: Commit): (d: CommitDetail)
    ensures d.sha == c.sha && d.url == c.url && d.lastModified == c.lastModified && d.stats == c.stats
    ensures d.message == NewlinesToTabs(c.message)
    ensures c.authorLogin.Some? ==> d.author == c.authorLogin.value
    ensures c.authorLogin.None? ==> d.author == NoAuthor
    ensures |d.message| == |c.message| && '\n' !in d.message
    ensures d.files.NoFilesOnCommit? <==> c.files == []
    ensures d.files.FileListing? ==>
              |d.files.names| == |c.files| && d.files.first == c.files[0] &&
              forall i :: 0 <= i < |c.files| ==> d.files.names[i] == c.files[i].filename
  {
    CommitDetail(
      c.sha,
      c.url,
      match c.authorLogin case Some(login) => login case None => NoAuthor,
      c.lastModified,
      NewlinesToTabs(c.message),
      c.stats,
      if c.files == [] then NoFilesOnCommit else FileListing(FileNames(c.files), c.files[0]))
  }

  /** `traverse_commits_detailed`: report the commit, then walk each parent. */
  function Detailed(c: Commit): (ds: seq<CommitDetail>)
    ensures |ds| >= 1 && ds[0] == Describe(c)
    decreases c, 1
  {
    [Describe(c)] + DetailedParents(c, 0)
  }

  /** The `for parent in commit.parents` loop, from position `from` on. */
  function DetailedParents(c: Commit, from: nat): seq<CommitDetail>
    decreases c, 0, |c.parents| - from
  {
    if from >= |c.parents| then [] else Detailed(c.parents[from]) + DetailedParents(c, from + 1)
  }

  predicate Describes(ds: seq<CommitDetail>, vs: seq<Visit>) {
    |ds| == |vs| && forall k :: 0 <= k < |vs| ==> ds[k] == Describe(vs[k].node)
  }

  lemma DescribesAppend(d1: seq<CommitDetail>, v1: seq<Visit>, d2: seq<CommitDetail>, v2: seq<Visit>)
    requires Describes(d1, v1) && Describes(d2, v2)
    ensures Describes(d1 + d2, v1 + v2)
  {
    assert forall k :: |v1| <= k < |v1| + |v2| ==> (v1 + v2)[k] == v2[k - |v1|];
  }

  /** The detailed walk reports, in order, the commits of the pre-order listing. */
  lemma {:induction false} DetailedIsPreOrder(c: Commit)
    ensures Describes(Detailed(c), PreOrder(c))
    decreases c, 1
  {
    DetailedParentsIsPreOrder(c, 0);
    DescribesAppend([Describe(c)], [Visit([], c)], DetailedParents(c, 0), ParentVisits(c, 0));
  }

  lemma {:induction false} DetailedParentsIsPreOrder(c: Commit, from: nat)
    ensures Describes(DetailedParents(c, from), ParentVisits(c, from))
    decreases c, 0, |c.parents| - from
  {
    if from < |c.parents| {
      DetailedIsPreOrder(c.parents[from]);
      DetailedParentsIsPreOrder(c, from + 1);
      DescribesAppend(Detailed(c.parents[from]), Under(from, PreOrder(c.parents[from])),
                      DetailedParents(c, from + 1), ParentVisits(c, from + 1));
    }
  }

  /** A merge whose two parents share their only parent: the shared ancestor is
      reported twice, once under each parent. */
  lemma SharedAncestorReportedTwice(c: Commit, a: Commit, b: Commit, root: Commit)
    requires c.parents == [a, b] && a.parents == [root] && b.parents == [root] && root.parents == []
    ensures Detailed(c) == [Describe(c), Describe(a), Describe(root), Describe(b), Describe(root)]
  {
    assert DetailedParents(root, 0) == [];
    assert Detailed(root) == [Describe(root)];
    assert DetailedParents(a, 1) == [] && DetailedParents(b, 1) == [] && DetailedParents(c, 2) == [];
    assert DetailedParents(a, 0) == [Describe(root)];
    assert DetailedParents(b, 0) == [Describe(root)];
    assert Detailed(a) == [Describe(a), Describe(root)];
    assert Detailed(b) == [Describe(b), Describe(root)];
    assert DetailedParents(c, 1) == [Describe(b), Describe(root)];
  }

  // ---------------------------------------------------------------------------
  // traverse_commits_short
  // ---------------------------------------------------------------------------

  /** The fields of one printed summary line. */
  datatype ShortEntry = ShortEntry(sha: string, depth: nat, letter: char, message: string)

  /** The printed entries, and whether the walk stopped on an IndexError. */
  datatype Trace = Trace(lines: seq<ShortEntry>, crashed: bool)

  /** Run `t`, then `rest` unless `t` raised. */
  function Then(t: Trace, rest: Trace): Trace {
    if t.crashed then t else Trace(t.lines + rest.lines, rest.crashed)
  }

  /** `string.ascii_uppercase`, the alphabet of path letters. */
  const Letters: string := "ABCDEFGHIJKLMNOPQRSTUVWXYZ"

  /** The path letter with number `index`. */
  function Letter(index: nat): (l: char)
    requires index < |Letters|
    ensures 'A' <= l <= 'Z'
  {
    ('A' as int + index) as char
  }

  lemma LetterIsAlphabet(index: nat)
    requires index < |Letters|
    ensures Letter(index) == Letters[index]
  {
  }

  /** The entry for commit `c` at `depth` with letter number `index`; the
      message is put on one line. */
  function Entry(c: Commit, depth: nat, index: nat): ShortEntry
    requires index < |Letters|
  {
    ShortEntry(c.sha, depth, Letter(index), NewlinesToTabs(c.message))
  }

  /** The printed text: sha, depth right-aligned in three places, the path
      letter, and the message, joined by " | ". */
  function ShortLine(e: ShortEntry): string {
    Join([e.sha, "depth " + PadLeft(NatToString(e.depth), 3), "path " + [e.letter], e.message], " | ")
  }

  /** The printed line is the four fields joined by " | ": it starts with the
      sha and the depth label and ends with the path label and the message. */
  lemma ShortLineFields(e: ShortEntry)
    ensures ShortLine(e) ==
              e.sha + " | " + "depth " + PadLeft(NatToString(e.depth), 3) + " | " + "path " + [e.letter] + " | " + e.message
  {
    JoinFour(e.sha, "depth " + PadLeft(NatToString(e.depth), 3), "path " + [e.letter], e.message, " | ");
  }

  /** An entry shows the commit's sha, the depth, the letter
      `string.ascii_uppercase[index]` and the message on one line. */
  lemma EntryFields(c: Commit, depth: nat, index: nat)
    requires index < |Letters|
    ensures Entry(c, depth, index) == ShortEntry(c.sha, depth, Letters[index], NewlinesToTabs(c.message))
  {
    LetterIsAlphabet(index);
  }

  /** `traverse_commits_short(commit, depth, parent_index)`: the letter lookup
      fails once the index passes the alphabet, before the line is printed. */
  function ShortWalk(c: Commit, depth: nat, index: nat): (t: Trace)
    ensures index >= |Letters| ==> t == Trace([], true)
    ensures index < |Letters| ==> |t.lines| >= 1 && t.lines[0] == Entry(c, depth, index)
    decreases c, 1
  {
    if index >= |Letters| then Trace([], true)
    else Then(Trace([Entry(c, depth, index)], false), ShortParents(c, depth, index, 0))
  }

  /** The `for i, parent in enumerate(commit.parents)` loop from position `i` on:
      parent `i` is walked one level deeper with index `i + parent_index`. */
  function ShortParents(c: Commit, depth: nat, index: nat, i: nat): Trace
    decreases c, 0, |c.parents| - i
  {
    if i >= |c.parents| then Trace([], false)
    else Then(ShortWalk(c.parents[i], depth + 1, i + index), ShortParents(c, depth, index, i + 1))
  }

  function Sum(p: seq<nat>): nat {
    if p == [] then 0 else p[0] + Sum(p[1..])
  }

  /** The lines a listing of visits yields when the head has the given depth
      and index: a visit at path `p` has depth `depth + |p|` and index
      `index + Sum(p)`, and the first visit whose index has no letter stops
      everything. */
  function Labelled(vs: seq<Visit>, depth: nat, index: nat): Trace
    decreases |vs|
  {
    if vs == [] then Trace([], false)
    else if index + Sum(vs[0].path) >= |Letters| then Trace([], true)
    else Then(Trace([Entry(vs[0].node, depth + |vs[0].path|, index + Sum(vs[0].path))], false),
              Labelled(vs[1..], depth, index))
  }

  lemma ThenAssociative(a: Trace, b: Trace, c: Trace)
    ensures Then(Then(a, b), c) == Then(a, Then(b, c))
  {
  }

  lemma {:induction false} LabelledAppend(a: seq<Visit>, b: seq<Visit>, depth: nat, index: nat)
    ensures Labelled(a + b, depth, index) == Then(Labelled(a, depth, index), Labelled(b, depth, index))
    decreases |a|
  {
    if a == [] {
      assert a + b == b;
    } else {
      assert (a + b)[0] == a[0] && (a + b)[1..] == a[1..] + b;
      var x := index + Sum(a[0].path);
      if x < |Letters| {
        var line := Trace([Entry(a[0].node, depth + |a[0].path|, x)], false);
        LabelledAppend(a[1..], b, depth, index);
        assert Labelled(a + b, depth, index) == Then(line, Labelled(a[1..] + b, depth, index));
        assert Labelled(a, depth, index) == Then(line, Labelled(a[1..], depth, index));
        ThenAssociative(line, Labelled(a[1..], depth, index), Labelled(b, depth, index));
      }
    }
  }

  lemma {:induction false} LabelledUnder(i: nat, vs: seq<Visit>, depth: nat, index: nat)
    ensures Labelled(Under(i, vs), depth, index) == Labelled(vs, depth + 1, index + i)
    decreases |vs|
  {
    if vs != [] {
      var ws := Under(i, vs);
      assert ws[0].path[1..] == vs[0].path;
      assert ws[1..] == Under(i, vs[1..]);
      LabelledUnder(i, vs[1..], depth, index);
    }
  }

  /** The short walk prints the pre-order listing with depth and index read
      off each visit's path. */
  lemma {:induction false} ShortWalkIsLabelled(c: Commit, depth: nat, index: nat)
    ensures ShortWalk(c, depth, index) == Labelled(PreOrder(c), depth, index)
    decreases c, 1
  {
    ShortParentsIsLabelled(c, depth, index, 0);
    LabelledAppend([Visit([], c)], ParentVisits(c, 0), depth, index);
  }

  lemma {:induction false} ShortParentsIsLabelled(c: Commit, depth: nat, index: nat, i: nat)
    ensures ShortParents(c, depth, index, i) == Labelled(ParentVisits(c, i), depth, index)
    decreases c, 0, |c.parents| - i
  {
    if i < |c.parents| {
      var sub := PreOrder(c.parents[i]);
      ShortWalkIsLabelled(c.parents[i], depth + 1, i + index);
      LabelledUnder(i, sub, depth, index);
      ShortParentsIsLabelled(c, depth, index, i + 1);
      LabelledAppend(Under(i, sub), ParentVisits(c, i + 1), depth, index);
    }
  }

  /** The position of the first visit whose index has no letter, or the
      length of the listing when there is none. */
  function FirstWithoutLetter(vs: seq<Visit>, index: nat): (k: nat)
    ensures k <= |vs|
    ensures forall i :: 0 <= i < k ==> index + Sum(vs[i].path) < |Letters|
    ensures k < |vs| ==> index + Sum(vs[k].path) >= |Letters|
    decreases |vs|
  {
    if vs == [] then 0
    else if index + Sum(vs[0].path) >= |Letters| then 0
    else 1 + FirstWithoutLetter(vs[1..], index)
  }

  lemma {:induction false} LabelledShape(vs: seq<Visit>, depth: nat, index: nat)
    ensures var t, k := Labelled(vs, depth, index), FirstWithoutLetter(vs, index);
      && t.crashed == (k < |vs|)
      && |t.lines| == k
      && forall i :: 0 <= i < k ==>
           t.lines[i] == Entry(vs[i].node, depth + |vs[i].path|, index + Sum(vs[i].path))
    decreases |vs|
  {
    if vs != [] && index + Sum(vs[0].path) < |Letters| {
      var e := Entry(vs[0].node, depth + |vs[0].path|, index + Sum(vs[0].path));
      var rest := Labelled(vs[1..], depth, index);
      LabelledShape(vs[1..], depth, index);
      assert Labelled(vs, depth, index) == Trace([e] + rest.lines, rest.crashed);
      assert FirstWithoutLetter(vs, index) == 1 + FirstWithoutLetter(vs[1..], index);
      forall i | 1 <= i < FirstWithoutLetter(vs, index)
        ensures ([e] + rest.lines)[i] == Entry(vs[i].node, depth + |vs[i].path|, index + Sum(vs[i].path))
      {
        assert vs[i] == vs[1..][i - 1];
      }
    }
  }

  /** `traverse_commits_short(head)`: one line per visit of the pre-order
      listing, the head at depth 1 and path A, a visit at path p at depth
      1 + |p| with letter number Sum(p) (so the first parent inherits its
      child's letter and the i-th is i letters further); the walk stops with
      an IndexError at the first visit whose letter number reaches 26, and
      completes exactly when there is none. */
  lemma ShortTraversal(c: Commit)
    ensures var t, vs := ShortWalk(c, 1, 0), PreOrder(c);
      && |t.lines| <= |vs|
      && (forall i :: 0 <= i < |t.lines| ==>
            Sum(vs[i].path) < 26 && t.lines[i] == Entry(vs[i].node, 1 + |vs[i].path|, Sum(vs[i].path)))
      && (t.crashed <==> exists k :: 0 <= k < |vs| && Sum(vs[k].path) >= 26)
      && (t.crashed ==> Sum(vs[|t.lines|].path) >= 26)
      && (!t.crashed ==> |t.lines| == |vs|)
  {
    ShortWalkIsLabelled(c, 1, 0);
    LabelledShape(PreOrder(c), 1, 0);
  }

  /** Stepping from a visit at path `p` to its parent number `i` adds `i` to
      the letter number. */
  lemma {:induction false} ParentLabel(p: seq<nat>, i: nat)
    ensures Sum(p + [i]) == Sum(p) + i
  {
    if p != [] {
      assert (p + [i])[1..] == p[1..] + [i];
      ParentLabel(p[1..], i);
    }
  }

}

=== FILE: overall.dfy ===
/** The per-user totals sample: for the first configured username, count the
    pull requests it authored, the commits it authored inside them, and the
    lines those commits add and delete. The counters restart for every
    repository, so the totals that come out are those of the last repository. */
module Overall {
  import opened Wrappers
  import opened Api

  datatype Totals = Totals(prs: nat, commits: nat, additions: nat, deletions: nat)

  /** Why the script stops without totals: no username to take first
      (IndexError), an unknown repository path (the platform's lookup error),
      or no repository at all, which leaves the totals unassigned (NameError). */
  datatype OverallError = NoUsernames | UnknownRepo(path: string) | TotalsUndefined

  /** A commit counts only when it has an author and that author is `login`. */
  predicate CountsCommit(c: Commit, login: string) {
    c.authorLogin == Some(login)
  }

  // ---------------------------------------------------------------------------
  // Reference definitions: what the counters count
  // ---------------------------------------------------------------------------

  /** The pull requests opened by `login`, in listing order. */
  function Authored(login: string, ps: seq<Pull>): seq<Pull> {
    if ps == [] then []
    else
      var last := ps[|ps| - 1];
      Authored(login, ps[..|ps| - 1]) + (if last.authorLogin == login then [last] else [])
  }

  /** The commits of a list that count for `login`. */
  function CommitsBy(login: string, cs: seq<Commit>): seq<Commit> {
    if cs == [] then []
    else
      var last := cs[|cs| - 1];
      CommitsBy(login, cs[..|cs| - 1]) + (if CountsCommit(last, login) then [last] else [])
  }

  /** The commits that count: those by `login` inside pull requests opened by
      `login` whose commit count is not zero. */
  function CountedCommits(login: string, ps: seq<Pull>): seq<Commit> {
    if ps == [] then []
    else
      var last := ps[|ps| - 1];
      CountedCommits(login, ps[..|ps| - 1]) +
      (if last.authorLogin == login && last.commitCount != 0 then CommitsBy(login, last.commits) else [])
  }

  /** Every file of every commit of the list, in order. */
  function FilesOf(cs: seq<Commit>): seq<FileChange> {
    if cs == [] then [] else FilesOf(cs[..|cs| - 1]) + cs[|cs| - 1].files
  }

  function SumAdditions(fs: seq<FileChange>): nat {
    if fs == [] then 0 else SumAdditions(fs[..|fs| - 1]) + fs[|fs| - 1].additions
  }

  function SumDeletions(fs: seq<FileChange>): nat {
    if fs == [] then 0 else SumDeletions(fs[..|fs| - 1]) + fs[|fs| - 1].deletions
  }

  /** The totals of one repository's listed pull requests. */
  function RepoTotals(login: string, ps: seq<Pull>): Totals {
    var counted := CountedCommits(login, ps);
    Totals(|Authored(login, ps)|, |counted|, SumAdditions(FilesOf(counted)), SumDeletions(FilesOf(counted)))
  }

  lemma {:induction false} SumsAppend(a: seq<FileChange>, b: seq<FileChange>)
    ensures SumAdditions(a + b) == SumAdditions(a) + SumAdditions(b)
    ensures SumDeletions(a + b) == SumDeletions(a) + SumDeletions(b)
  {
    if b == [] {
      assert a + b == a;
    } else {
      assert (a + b)[..|a + b| - 1] == a + b[..|b| - 1];
      SumsAppend(a, b[..|b| - 1]);
    }
  }

  lemma {:induction false} FilesOfAppend(a: seq<Commit>, b: seq<Commit>)
    ensures FilesOf(a + b) == FilesOf(a) + FilesOf(b)
  {
    if b == [] {
      assert a + b == a;
    } else {
      assert (a + b)[..|a + b| - 1] == a + b[..|b| - 1];
      FilesOfAppend(a, b[..|b| - 1]);
    }
  }

  // ---------------------------------------------------------------------------
  // The counting loops
  // ---------------------------------------------------------------------------

  /** The loop over one commit's files: `u_additions += file_.additions` and
      `u_deletions += file_.deletions`. */
  method TallyFiles(files: seq<FileChange>) returns (additions: nat, deletions: nat)
    ensures additions == SumAdditions(files) && deletions == SumDeletions(files)
  {
    additions, deletions := 0, 0;
    for k := 0 to |files|
      invariant additions == SumAdditions(files[..k]) && deletions == SumDeletions(files[..k])
    {
      assert files[..k + 1][..k] == files[..k];
      additions := additions + files[k].additions;
      deletions := deletions + files[k].deletions;
    }
    assert files[..|files|] == files;
  }

  /** The loop over one pull request's commits: count those by `login`, and
      add up their files; commits by anyone else, or by nobody, are passed over. */
  method TallyCommits(login: string, commits: seq<Commit>) returns (count: nat, additions: nat, deletions: nat)
    ensures count == |CommitsBy(login, commits)|
    ensures additions == SumAdditions(FilesOf(CommitsBy(login, commits)))
    ensures deletions == SumDeletions(FilesOf(CommitsBy(login, commits)))
  {
    count, additions, deletions := 0, 0, 0;
    for j := 0 to |commits|
      invariant count == |CommitsBy(login, commits[..j])|
      invariant additions == SumAdditions(FilesOf(CommitsBy(login, commits[..j])))
      invariant deletions == SumDeletions(FilesOf(CommitsBy(login, commits[..j])))
    {
      var commit := commits[j];
      assert commits[..j + 1][..j] == commits[..j];
      ghost var done := CommitsBy(login, commits[..j]);
      if commit.authorLogin.Some? && commit.authorLogin.value == login {
        count := count + 1;
        var a, d := TallyFiles(commit.files);
        assert CommitsBy(login, commits[..j + 1]) == done + [commit];
        assert (done + [commit])[..|done|] == done;
        assert FilesOf(done + [commit]) == FilesOf(done) + commit.files;
        SumsAppend(FilesOf(done), commit.files);
        additions, deletions := additions + a, deletions + d;
        assert additions == SumAdditions(FilesOf(done)) + SumAdditions(commit.files);
        assert additions == SumAdditions(FilesOf(done + [commit]));
      } else {
        assert CommitsBy(login, commits[..j + 1]) == done;
      }
    }
    assert commits[..|commits|] == commits;
  }

  /** The loop over one repository's pull requests, with the counters started
      at zero: every pull request opened by `login` is counted, even one with
      no commits; its commits are walked only when its commit count is not zero. */
  method TallyRepo(login: string, pulls: seq<Pull>) returns (t: Totals)
    ensures t == RepoTotals(login, pulls)
  {
    var prs, commits, additions, deletions := 0, 0, 0, 0;
    for i := 0 to |pulls|
      invariant prs == |Authored(login, pulls[..i])|
      invariant commits == |CountedCommits(login, pulls[..i])|
      invariant additions == SumAdditions(FilesOf(CountedCommits(login, pulls[..i])))
      invariant deletions == SumDeletions(FilesOf(CountedCommits(login, pulls[..i])))
    {
      var pull := pulls[i];
      assert pulls[..i + 1][..i] == pulls[..i];
      if pull.authorLogin == login {
        prs := prs + 1;
        if pull.commitCount != 0 {
          var n, a, d := TallyCommits(login, pull.commits);
          ghost var done := CountedCommits(login, pulls[..i]);
          assert CountedCommits(login, pulls[..i + 1]) == done + CommitsBy(login, pull.commits);
          FilesOfAppend(done, CommitsBy(login, pull.commits));
          SumsAppend(FilesOf(done), FilesOf(CommitsBy(login, pull.commits)));
          commits, additions, deletions := commits + n, additions + a, deletions + d;
        } else {
          assert CountedCommits(login, pulls[..i + 1]) == CountedCommits(login, pulls[..i]);
        }
      } else {
        assert CountedCommits(login, pulls[..i + 1]) == CountedCommits(login, pulls[..i]);
        assert Authored(login, pulls[..i + 1]) == Authored(login, pulls[..i]);
      }
    }
    assert pulls[..|pulls|] == pulls;
    t := Totals(prs, commits, additions, deletions);
  }

  // ---------------------------------------------------------------------------
  // The script as a whole
  // ---------------------------------------------------------------------------

  function Last<T>(s: seq<T>): T
    requires s != []
  {
    s[|s| - 1]
  }

  /** The loop over the configured paths: each path is looked up, the counters
      restart, and the repository's open pull requests are counted; `latest`
      holds the totals of the last repository counted so far. */
  function OverRepos(login: string, paths: seq<string>, repoAt: map<string, Repo>, latest: Option<Totals>)
    : (r: Result<Totals, OverallError>)
    ensures r.Success? <==> (forall p :: p in paths ==> p in repoAt) && (paths != [] || latest.Some?)
    ensures r.Success? && paths != [] ==> r.value == RepoTotals(login, PullsIn(repoAt[Last(paths)], Open))
    ensures r.Success? && paths == [] ==> r == Success(latest.value)
    ensures r.Failure? ==> r.error != NoUsernames
    ensures r.Failure? && r.error.UnknownRepo? ==> r.error.path in paths && r.error.path !in repoAt
  {
    if paths == [] then
      if latest.Some? then Success(latest.value) else Failure(TotalsUndefined)
    else if paths[0] !in repoAt then Failure(UnknownRepo(paths[0]))
    else OverRepos(login, paths[1..], repoAt, Some(RepoTotals(login, PullsIn(repoAt[paths[0]], Open))))
  }

  /** `get_repo` raises at the first unknown path: the loop stops there, with
      that path, whatever comes after it. */
  lemma {:induction false} FirstUnknownRepo(login: string, paths: seq<string>, repoAt: map<string, Repo>, latest: Option<Totals>)
    ensures (exists p :: p in paths && p !in repoAt) ==>
              exists k :: 0 <= k < |paths| && paths[k] !in repoAt &&
                          OverRepos(login, paths, repoAt, latest) == Failure(UnknownRepo(paths[k])) &&
                          forall j :: 0 <= j < k ==> paths[j] in repoAt
  {
    if paths != [] && paths[0] in repoAt {
      var next := Some(RepoTotals(login, PullsIn(repoAt[paths[0]], Open)));
      FirstUnknownRepo(login, paths[1..], repoAt, next);
      if exists p :: p in paths && p !in repoAt {
        var p :| p in paths && p !in repoAt;
        assert p in paths[1..];
        var k :| 0 <= k < |paths[1..]| && paths[1..][k] !in repoAt &&
                 OverRepos(login, paths[1..], repoAt, next) == Failure(UnknownRepo(paths[1..][k])) &&
                 forall j :: 0 <= j < k ==> paths[1..][j] in repoAt;
        assert paths[k + 1] == paths[1..][k];
        assert forall j :: 1 <= j < k + 1 ==> paths[j] == paths[1..][j - 1];
      }
    }
  }

  /** The sample's result. `repo.get_pulls()` is called without a state, which
      lists open pull requests only. */
  function Overall(usernames: seq<string>, paths: seq<string>, repoAt: map<string, Repo>)
    : (r: Result<Totals, OverallError>)
    ensures usernames == [] ==> r == Failure(NoUsernames)
    ensures r.Success? <==> usernames != [] && paths != [] && forall p :: p in paths ==> p in repoAt
    ensures usernames != [] && paths == [] ==> r == Failure(TotalsUndefined)
    ensures r.Success? ==> r.value == RepoTotals(usernames[0], PullsIn(repoAt[Last(paths)], Open))
    ensures r.Failure? && r.error.UnknownRepo? ==> r.error.path in paths && r.error.path !in repoAt
    ensures usernames != [] && (exists p :: p in paths && p !in repoAt) ==>
              exists k :: 0 <= k < |paths| && paths[k] !in repoAt && r == Failure(UnknownRepo(paths[k])) &&
                          forall j :: 0 <= j < k ==> paths[j] in repoAt
  {
    if usernames == [] then Failure(NoUsernames)
    else
      FirstUnknownRepo(usernames[0], paths, repoAt, None);
      OverRepos(usernames[0], paths, repoAt, None)
  }

  /** The script's loop, counter by counter. */
  method RunOverall(usernames: seq<string>, paths: seq<string>, repoAt: map<string, Repo>)
    returns (r: Result<Totals, OverallError>)
    ensures r == Overall(usernames, paths, repoAt)
  {
    if usernames == [] {
      return Failure(NoUsernames);
    }
    var login := usernames[0];
    var latest: Option<Totals> := None;
    for i := 0 to |paths|
      invariant OverRepos(login, paths, repoAt, None) == OverRepos(login, paths[i..], repoAt, latest)
    {
      if paths[i] !in repoAt {
        return Failure(UnknownRepo(paths[i]));
      }
      var t := TallyRepo(login, PullsIn(repoAt[paths[i]], Open));
      assert paths[i..][1..] == paths[i + 1..];
      latest := Some(t);
    }
    r := if latest.Some? then Success(latest.value) else Failure(TotalsUndefined);
  }

  // ---------------------------------------------------------------------------
  // Properties
  // ---------------------------------------------------------------------------

  /** Only the first configured username is ever used. */
  lemma OnlyFirstUsername(u1: seq<string>, u2: seq<string>, paths: seq<string>, repoAt: map<string, Repo>)
    requires u1 != [] && u2 != [] && u1[0] == u2[0]
    ensures Overall(u1, paths, repoAt) == Overall(u2, paths, repoAt)
  {
  }

  /** The counters restart per repository: with the same last repository, any
      earlier resolvable repositories leave the totals unchanged. */
  lemma {:induction false} LastRepoWins(login: string, earlier: seq<string>, p: string, repoAt: map<string, Repo>)
    requires forall q :: q in earlier ==> q in repoAt
    requires p in repoAt
    ensures Overall([login], earlier + [p], repoAt) == Overall([login], [p], repoAt)
  {
    assert Last(earlier + [p]) == p;
  }

  /** A pull request opened by `login` counts once even with no commits, and
      then adds nothing else. */
  lemma CommitlessPullCountsOnce(login: string, ps: seq<Pull>, p: Pull)
    requires p.authorLogin == login && p.commitCount == 0
    ensures RepoTotals(login, ps + [p]) ==
              var t := RepoTotals(login, ps); Totals(t.prs + 1, t.commits, t.additions, t.deletions)
  {
    assert (ps + [p])[..|ps|] == ps;
    assert CountedCommits(login, ps + [p]) == CountedCommits(login, ps);
  }

  /** A pull request opened by someone else changes nothing, whatever its commits. */
  lemma OtherAuthorsIgnored(login: string, ps: seq<Pull>, p: Pull)
    requires p.authorLogin != login
    ensures RepoTotals(login, ps + [p]) == RepoTotals(login, ps)
  {
    assert (ps + [p])[..|ps|] == ps;
    assert CountedCommits(login, ps + [p]) == CountedCommits(login, ps);
    assert Authored(login, ps + [p]) == Authored(login, ps);
  }

  lemma {:induction false} CommitsByMembers(login: string, cs: seq<Commit>)
    ensures forall c :: c in CommitsBy(login, cs) <==> c in cs && CountsCommit(c, login)
  {
    if cs != [] {
      CommitsByMembers(login, cs[..|cs| - 1]);
      assert cs == cs[..|cs| - 1] + [cs[|cs| - 1]];
    }
  }

  /** Every counted commit has an author, and it is `login`; it comes from a
      pull request opened by `login` whose commit count is not zero. */
  lemma {:induction false} CountedCommitsAreAuthored(login: string, ps: seq<Pull>)
    ensures forall c :: c in CountedCommits(login, ps) ==>
              c.authorLogin == Some(login) &&
              exists p :: p in ps && p.authorLogin == login && p.commitCount != 0 && c in p.commits
  {
    if ps != [] {
      var last := ps[|ps| - 1];
      CountedCommitsAreAuthored(login, ps[..|ps| - 1]);
      CommitsByMembers(login, last.commits);
      assert forall p :: p in ps[..|ps| - 1] ==> p in ps;
      assert last in ps;
    }
  }

  /** The pull request count is the number of pull requests opened by `login`. */
  lemma {:induction false} AuthoredCount(login: string, ps: seq<Pull>)
    ensures |Authored(login, ps)| == multiset(seq(|ps|, i requires 0 <= i < |ps| => ps[i].authorLogin))[login]
  {
    if ps != [] {
      var init := ps[..|ps| - 1];
      AuthoredCount(login, init);
      var logins := seq(|ps|, i requires 0 <= i < |ps| => ps[i].authorLogin);
      var initLogins := seq(|init|, i requires 0 <= i < |init| => init[i].authorLogin);
      assert logins == initLogins + [ps[|ps| - 1].authorLogin];
    }
  }
}

=== FILE: pr_report.dfy ===
/** The pull-request report: choose the repositories, keep the pull requests of
    the configured users, turn each into a row of business columns plus one
    count per review state, skip the ones that fail, and write a CSV table
    under a header of 19 fixed columns followed by the review-state domain. */
module PrReport {
  import opened Wrappers
  import opened Text
  import opened Api

  /** A cell as the CSV writer receives it: text, a number, or Python's None. */
  datatype Value = Str(s: string) | Int(n: int) | Null

  /** A column of the report. The business columns are fixed; every review
      state gets a column named after the state. */
  datatype Column =
    | RepoOwner | RepoName | RepoUrl
    | PrIdColumn | PrTitle | Author | PrUrl
    | Status | StatusChangedAt | UpdatedAt | CreatedAt
    | Commits | ChangedFiles | AddedLines | DeletedLines
    | ChangedLines
    | Comments | MergedBy | Reviewers
    | ReviewState(state: string)

  /** The column's title in the CSV header. */
  function ColumnName(c: Column): string {
    match c
    case RepoOwner => "Repo Owner"
    case RepoName => "Repo Name"
    case RepoUrl => "Repo URL"
    case PrIdColumn => "PR ID"
    case PrTitle => "PR Title"
    case Author => "Author"
    case PrUrl => "PR URL"
    case Status => "Status"
    case StatusChangedAt => "Status Changed At"
    case UpdatedAt => "Updated At"
    case CreatedAt => "Created At"
    case Commits => "Commits"
    case ChangedFiles => "Changed Files"
    case AddedLines => "Added Lines"
    case DeletedLines => "Deleted Lines"
    case ChangedLines => "Changed Lines"
    case Comments => "Comments"
    case MergedBy => "Merged By"
    case Reviewers => "Reviewers"
    case ReviewState(s) => s
  }

  function Elems<T>(s: seq<T>): set<T> {
    set x | x in s
  }

  predicate Distinct<T(==)>(s: seq<T>) {
    forall i, j :: 0 <= i < j < |s| ==> s[i] != s[j]
  }

  /** The business columns, in header order. */
  const FixedColumns: seq<Column> := [
    RepoOwner, RepoName, RepoUrl,
    PrIdColumn, PrTitle, Author, PrUrl,
    Status, StatusChangedAt, UpdatedAt, CreatedAt,
    Commits, ChangedFiles, AddedLines, DeletedLines,
    ChangedLines,
    Comments, MergedBy, Reviewers
  ]

  predicate IsFixed(c: Column) {
    !c.ReviewState?
  }

  lemma FixedColumnsAreTheBusinessColumns()
    ensures forall c :: c in FixedColumns <==> IsFixed(c)
  {
  }

  function StateColumns(states: seq<string>): (cs: seq<Column>)
    ensures |cs| == |states|
    ensures forall i :: 0 <= i < |states| ==> cs[i] == ReviewState(states[i])
  {
    seq(|states|, i requires 0 <= i < |states| => ReviewState(states[i]))
  }

  /** The CSV header: the 19 business columns in their fixed order, then one
      column per state of the review-state domain (`Review.get_states()`). */
  function Header(domain: seq<string>): (h: seq<Column>)
    ensures |h| == 19 + |domain|
    ensures h[..19] == FixedColumns
    ensures forall i :: 0 <= i < 19 ==> IsFixed(h[i])
    ensures forall i :: 0 <= i < |domain| ==> h[19 + i] == ReviewState(domain[i])
    ensures forall c :: c in h <==> IsFixed(c) || (c.ReviewState? && c.state in domain)
  {
    FixedColumnsAreTheBusinessColumns();
    FixedColumns + StateColumns(domain)
  }

  /** The business titles, in the order the script lists them. */
  const BusinessTitles: seq<string> := [
    "Repo Owner", "Repo Name", "Repo URL",
    "PR ID", "PR Title", "Author", "PR URL",
    "Status", "Status Changed At", "Updated At", "Created At",
    "Commits", "Changed Files", "Added Lines", "Deleted Lines",
    "Changed Lines",
    "Comments", "Merged By", "Reviewers"
  ]

  /** The business columns carry the business titles, in the script's order. */
  lemma FixedTitles(i: nat)
    requires i < 19
    ensures ColumnName(FixedColumns[i]) == BusinessTitles[i]
  {
  }

  /** The header's titles: the 19 business titles in the script's order. */
  lemma HeaderTitles(domain: seq<string>)
    ensures forall i :: 0 <= i < 19 ==> ColumnName(Header(domain)[i]) == BusinessTitles[i]
  {
    var h := Header(domain);
    forall i | 0 <= i < 19
      ensures ColumnName(h[i]) == BusinessTitles[i]
    {
      assert h[i] == h[..19][i] == FixedColumns[i];
      FixedTitles(i);
    }
  }

  /** After the business titles, the header names each review state of the
      domain, in order. */
  lemma HeaderStateTitles(domain: seq<string>)
    ensures forall i :: 0 <= i < |domain| ==> ColumnName(Header(domain)[19 + i]) == domain[i]
  {
  }

  /** One report row: the business columns, then the count of every review
      state the row carries. The key set of the row dictionary is the
      business columns plus one column per counted state. */
  datatype Row = Row(
    repoOwner: string, repoName: string, repoUrl: string,
    prId: string, prTitle: string, author: string, prUrl: string,
    status: string, statusChangedAt: Option<string>, updatedAt: string, createdAt: string,
    commits: nat, changedFiles: nat, addedLines: int, deletedLines: int,
    changedLines: int,
    comments: nat, mergedBy: Option<string>, reviewers: string,
    reviewCounts: map<string, nat>)

  /** Whether the row dictionary has a key for the column. */
  predicate HasColumn(row: Row, c: Column) {
    IsFixed(c) || c.state in row.reviewCounts
  }

  function OptionalText(o: Option<string>): Value {
    match o
    case Some(s) => Str(s)
    case None => Null
  }

  /** The row dictionary's value for a column it has. */
  function Cell(row: Row, c: Column): Value
    requires HasColumn(row, c)
  {
    match c
    case RepoOwner => Str(row.repoOwner)
    case RepoName => Str(row.repoName)
    case RepoUrl => Str(row.repoUrl)
    case PrIdColumn => Str(row.prId)
    case PrTitle => Str(row.prTitle)
    case Author => Str(row.author)
    case PrUrl => Str(row.prUrl)
    case Status => Str(row.status)
    case StatusChangedAt => OptionalText(row.statusChangedAt)
    case UpdatedAt => Str(row.updatedAt)
    case CreatedAt => Str(row.createdAt)
    case Commits => Int(row.commits)
    case ChangedFiles => Int(row.changedFiles)
    case AddedLines => Int(row.addedLines)
    case DeletedLines => Int(row.deletedLines)
    case ChangedLines => Int(row.changedLines)
    case Comments => Int(row.comments)
    case MergedBy => OptionalText(row.mergedBy)
    case Reviewers => Str(row.reviewers)
    case ReviewState(s) => Int(row.reviewCounts[s])
  }

  // ---------------------------------------------------------------------------
  // Row building (to_row)
  // ---------------------------------------------------------------------------

  /** `f"#{number}"`: a hash sign followed by the decimal number, which reads
      back as the number and has no leading zero. */
  function PrId(number: nat): (id: string)
    ensures |id| >= 2 && id[0] == '#'
    ensures AllDigits(id[1..]) && ParseDecimal(id[1..]) == number
    ensures |id| > 2 ==> id[1] != '0'
  {
    ParseNatToString(number);
    assert ("#" + NatToString(number))[1..] == NatToString(number);
    "#" + NatToString(number)
  }

  /** `Counter(states)`: every state that occurs, with how often it occurs. */
  function Tally(states: seq<string>): (m: map<string, nat>)
    ensures m.Keys == Elems(states)
    ensures forall s :: s in m ==> m[s] == multiset(states)[s]
  {
    if states == [] then map[]
    else
      var init, last := states[..|states| - 1], states[|states| - 1];
      assert states == init + [last];
      var m := Tally(init);
      m[last := if last in m then m[last] + 1 else 1]
  }

  /** `counts.setdefault(s, 0)` for each state of the domain: adds the missing
      states with zero and never overwrites a count already present. */
  function ZeroFill(m: map<string, nat>, domain: seq<string>): (r: map<string, nat>)
    ensures r.Keys == m.Keys + Elems(domain)
    ensures forall s :: s in m ==> r[s] == m[s]
    ensures forall s :: s in r && s !in m ==> r[s] == 0
    decreases |domain|
  {
    if domain == [] then m
    else
      var next := if domain[0] in m then m else m[domain[0] := 0];
      assert Elems(domain) == {domain[0]} + Elems(domain[1..]);
      ZeroFill(next, domain[1..])
  }

  /** The review-state counts of a row: the count of every state seen or in the
      domain is the number of reviews in that state (zero for an unseen one). */
  function ReviewCounts(states: seq<string>, domain: seq<string>): (m: map<string, nat>)
    ensures m.Keys == Elems(states) + Elems(domain)
    ensures forall s :: s in m ==> m[s] == multiset(states)[s]
  {
    ZeroFill(Tally(states), domain)
  }

  /** `to_row`: the business columns and the review-state counts of a pull
      request, or the fault raised while building its PullRequest model.
      'Changed Lines' adds the model's additions to the RAW pull request's
      deletions, so it equals 'Added Lines' + 'Deleted Lines' exactly when the
      two deletion counts agree. */
  function ToRow(repo: Repo, pull: Pull, domain: seq<string>): (r: Result<Row, Fault>)
    ensures r.Failure? <==> pull.summary.Failure?
    ensures r.Failure? ==> r.error == pull.summary.error
  {
    match pull.summary
    case Failure(f) => Failure(f)
    case Success(pr) =>
      Success(Row(
        repoOwner := repo.ownerDisplay,
        repoName := repo.name,
        repoUrl := repo.htmlUrl,
        prId := PrId(pr.number),
        prTitle := pr.title,
        author := pull.authorDisplay,
        prUrl := pr.url,
        status := pr.status,
        statusChangedAt := pr.statusChangedAt,
        updatedAt := pr.updatedAt,
        createdAt := pr.createdAt,
        commits := pr.commitCount,
        changedFiles := pr.changedFiles,
        addedLines := pr.additions,
        deletedLines := pr.deletions,
        changedLines := pr.additions + pull.deletions,
        comments := pr.commentCount,
        mergedBy := pr.mergedByName,
        reviewers := Join(pr.reviewerNames, ", "),
        reviewCounts := ReviewCounts(pr.reviewStates, domain)))
  }

  /** What a row records: "#" and the number as its id, the added lines plus
      the pull request's own deletion count as its changed lines, the
      reviewers joined (empty exactly when there are no reviewer names or a
      single empty one), and per review state
      the number of reviews in it, zero for a state of the domain that none
      of the reviews has. */
  lemma ToRowFields(repo: Repo, pull: Pull, domain: seq<string>)
    requires pull.summary.Success?
    ensures var pr, row := pull.summary.value, ToRow(repo, pull, domain).value;
      && |row.prId| >= 2 && row.prId[0] == '#' && AllDigits(row.prId[1..]) && ParseDecimal(row.prId[1..]) == pr.number
      && row.changedLines == pr.additions + pull.deletions
      && (row.changedLines == row.addedLines + row.deletedLines <==> pull.deletions == pr.deletions)
      && (row.reviewers == "" <==> pr.reviewerNames == [] || pr.reviewerNames == [""])
      && row.reviewCounts.Keys == Elems(pr.reviewStates) + Elems(domain)
      && (forall s :: s in row.reviewCounts ==> row.reviewCounts[s] == multiset(pr.reviewStates)[s])
      && (forall s :: s in domain && s !in pr.reviewStates ==> row.reviewCounts[s] == 0)
  {
    JoinIsEmpty(pull.summary.value.reviewerNames, ", ");
  }

  /** Which value each business column of a built row holds: the repository's
      owner, name and url, the author, the model's fields, the model's
      additions plus the raw deletions, and the reviewer names joined by ", ". */
  lemma ToRowCells(repo: Repo, pull: Pull, domain: seq<string>)
    requires pull.summary.Success?
    ensures var pr, row := pull.summary.value, ToRow(repo, pull, domain).value;
      && row.repoOwner == repo.ownerDisplay && row.repoName == repo.name && row.repoUrl == repo.htmlUrl
      && row.prId == PrId(pr.number) && row.prTitle == pr.title
      && row.author == pull.authorDisplay && row.prUrl == pr.url
      && row.status == pr.status && row.statusChangedAt == pr.statusChangedAt
      && row.updatedAt == pr.updatedAt && row.createdAt == pr.createdAt
      && row.commits == pr.commitCount && row.changedFiles == pr.changedFiles
      && row.addedLines == pr.additions && row.deletedLines == pr.deletions
      && row.changedLines == pr.additions + pull.deletions
      && row.comments == pr.commentCount && row.mergedBy == pr.mergedByName
      && row.reviewers == Join(pr.reviewerNames, ", ")
  {
  }

  /** The dictionary lookup gives the repository and identity columns' fields. */
  lemma CellFields(row: Row)
    ensures Cell(row, RepoOwner) == Str(row.repoOwner)
    ensures Cell(row, RepoName) == Str(row.repoName)
    ensures Cell(row, RepoUrl) == Str(row.repoUrl)
    ensures Cell(row, PrIdColumn) == Str(row.prId)
    ensures Cell(row, PrTitle) == Str(row.prTitle)
    ensures Cell(row, Author) == Str(row.author)
    ensures Cell(row, PrUrl) == Str(row.prUrl)
  {
  }

  /** The dictionary lookup gives the status, date, merger and reviewer columns' fields. */
  lemma CellStatusFields(row: Row)
    ensures Cell(row, Status) == Str(row.status)
    ensures Cell(row, StatusChangedAt) == OptionalText(row.statusChangedAt)
    ensures Cell(row, UpdatedAt) == Str(row.updatedAt)
    ensures Cell(row, CreatedAt) == Str(row.createdAt)
    ensures Cell(row, MergedBy) == OptionalText(row.mergedBy)
    ensures Cell(row, Reviewers) == Str(row.reviewers)
  {
  }

  /** The dictionary lookup gives the count columns' fields. */
  lemma CellNumberFields(row: Row)
    ensures Cell(row, Commits) == Int(row.commits)
    ensures Cell(row, ChangedFiles) == Int(row.changedFiles)
    ensures Cell(row, AddedLines) == Int(row.addedLines)
    ensures Cell(row, DeletedLines) == Int(row.deletedLines)
    ensures Cell(row, ChangedLines) == Int(row.changedLines)
    ensures Cell(row, Comments) == Int(row.comments)
  {
  }

  /** The dictionary lookup gives each counted review state's count. */
  lemma CellCounts(row: Row)
    ensures forall s :: s in row.reviewCounts ==> Cell(row, ReviewState(s)) == Int(row.reviewCounts[s])
  {
  }

  /** The value written under each column of a built row: the repository's
      owner, name and url, the author, the model's fields, the model's
      additions plus the raw deletions, the reviewer names joined by ", ",
      and per domain state the number of reviews in it. */
  lemma ToRowColumnCells(repo: Repo, pull: Pull, domain: seq<string>)
    requires pull.summary.Success?
    ensures var pr, row := pull.summary.value, ToRow(repo, pull, domain).value;
      && Cell(row, RepoOwner) == Str(repo.ownerDisplay) && Cell(row, RepoName) == Str(repo.name)
      && Cell(row, RepoUrl) == Str(repo.htmlUrl) && Cell(row, PrIdColumn) == Str(PrId(pr.number))
      && Cell(row, PrTitle) == Str(pr.title) && Cell(row, Author) == Str(pull.authorDisplay)
      && Cell(row, PrUrl) == Str(pr.url) && Cell(row, Status) == Str(pr.status)
      && Cell(row, StatusChangedAt) == OptionalText(pr.statusChangedAt)
      && Cell(row, UpdatedAt) == Str(pr.updatedAt) && Cell(row, CreatedAt) == Str(pr.createdAt)
      && Cell(row, Commits) == Int(pr.commitCount) && Cell(row, ChangedFiles) == Int(pr.changedFiles)
      && Cell(row, AddedLines) == Int(pr.additions) && Cell(row, DeletedLines) == Int(pr.deletions)
      && Cell(row, ChangedLines) == Int(pr.additions + pull.deletions)
      && Cell(row, Comments) == Int(pr.commentCount) && Cell(row, MergedBy) == OptionalText(pr.mergedByName)
      && Cell(row, Reviewers) == Str(Join(pr.reviewerNames, ", "))
    ensures var pr, row := pull.summary.value, ToRow(repo, pull, domain).value;
      forall s :: s in domain ==> HasColumn(row, ReviewState(s)) && Cell(row, ReviewState(s)) == Int(multiset(pr.reviewStates)[s])
  {
    var row := ToRow(repo, pull, domain).value;
    ToRowCells(repo, pull, domain);
    ToRowFields(repo, pull, domain);
    CellFields(row);
    CellStatusFields(row);
    CellNumberFields(row);
    CellCounts(row);
  }

  function SumOver(m: map<string, nat>, ks: seq<string>): nat
    requires Elems(ks) <= m.Keys
  {
    if ks == [] then 0 else m[ks[0]] + SumOver(m, ks[1..])
  }

  function SumCounts(ms: multiset<string>, ks: seq<string>): nat {
    if ks == [] then 0 else ms[ks[0]] + SumCounts(ms, ks[1..])
  }

  lemma {:induction false} SumOverIsSumCounts(m: map<string, nat>, ms: multiset<string>, ks: seq<string>)
    requires Elems(ks) <= m.Keys
    requires forall s :: s in m ==> m[s] == ms[s]
    ensures SumOver(m, ks) == SumCounts(ms, ks)
  {
    if ks != [] {
      SumOverIsSumCounts(m, ms, ks[1..]);
    }
  }

  lemma {:induction false} SumCountsEmpty(ks: seq<string>)
    ensures SumCounts(multiset{}, ks) == 0
  {
    if ks != [] {
      SumCountsEmpty(ks[1..]);
    }
  }

  lemma {:induction false} SumCountsAddOne(ms: multiset<string>, x: string, ks: seq<string>)
    ensures SumCounts(ms + multiset{x}, ks) == SumCounts(ms, ks) + multiset(ks)[x]
  {
    if ks != [] {
      SumCountsAddOne(ms, x, ks[1..]);
      assert ks == [ks[0]] + ks[1..];
    }
  }

  lemma {:induction false} DistinctOccursOnce(ks: seq<string>, x: string)
    requires Distinct(ks) && x in ks
    ensures multiset(ks)[x] == 1
  {
    assert ks == [ks[0]] + ks[1..];
    if ks[0] == x {
      assert x !in ks[1..];
    } else {
      DistinctOccursOnce(ks[1..], x);
    }
  }

  lemma {:induction false} SumCountsOfAll(states: seq<string>, ks: seq<string>)
    requires Distinct(ks) && Elems(states) <= Elems(ks)
    ensures SumCounts(multiset(states), ks) == |states|
  {
    if states == [] {
      SumCountsEmpty(ks);
    } else {
      var init, last := states[..|states| - 1], states[|states| - 1];
      assert states == init + [last];
      assert Elems(init) <= Elems(states);
      SumCountsOfAll(init, ks);
      SumCountsAddOne(multiset(init), last, ks);
      assert last in Elems(ks);
      DistinctOccursOnce(ks, last);
    }
  }

  /** Over any duplicate-free listing of a row's review-state columns, the
      counts add up to the number of reviews on the pull request. */
  lemma CountsSumToReviews(states: seq<string>, domain: seq<string>, ks: seq<string>)
    requires Distinct(ks) && Elems(ks) == Elems(states) + Elems(domain)
    ensures SumOver(ReviewCounts(states, domain), ks) == |states|
  {
    SumOverIsSumCounts(ReviewCounts(states, domain), multiset(states), ks);
    SumCountsOfAll(states, ks);
  }

  /** A built row lacks no header column, and it has no column outside the
      header exactly when every review state is in the domain. */
  lemma RowFitsHeader(repo: Repo, pull: Pull, domain: seq<string>)
    requires pull.summary.Success?
    ensures forall c :: c in Header(domain) ==> HasColumn(ToRow(repo, pull, domain).value, c)
    ensures (forall c :: HasColumn(ToRow(repo, pull, domain).value, c) ==> c in Header(domain)) <==>
              forall s :: s in pull.summary.value.reviewStates ==> s in domain
  {
    ToRowFields(repo, pull, domain);
    var row := ToRow(repo, pull, domain).value;
    if forall c :: HasColumn(row, c) ==> c in Header(domain) {
      forall s | s in pull.summary.value.reviewStates
        ensures s in domain
      {
        assert HasColumn(row, ReviewState(s));
      }
    }
  }

  // ---------------------------------------------------------------------------
  // Selection of repositories and pull requests (main)
  // ---------------------------------------------------------------------------

  /** The settings the report reads. */
  datatype Config = Config(
    usernames: seq<string>,
    byOwner: bool,
    repoOwner: string,
    repoPaths: seq<string>,
    prState: PullState)

  /** What the platform would answer: the repositories of each known owner,
      and the repository behind each valid path. */
  datatype Platform = Platform(reposOfOwner: map<string, seq<Repo>>, repoAt: map<string, Repo>)

  /** The fatal errors of a run. */
  datatype RunError =
    | UnknownOwner(owner: string)
    | BadRepoPath(path: string, message: string)
    | ExtraFields(row: nat, fields: set<Column>)

  /** `f"Bad repo path: {repo_path}"`: the message ends with the offending path. */
  function BadPathMessage(path: string): (msg: string)
    ensures |msg| >= |path| && msg[|msg| - |path|..] == path
  {
    "Bad repo path: " + path
  }

  /** Eager resolution of the configured paths: either every path resolves,
      in order, or the run stops at the first path that does not. */
  function ResolvePaths(paths: seq<string>, repoAt: map<string, Repo>): (r: Result<seq<Repo>, RunError>)
    ensures r.Success? <==> forall p :: p in paths ==> p in repoAt
    ensures r.Success? ==>
              |r.value| == |paths| && forall i :: 0 <= i < |paths| ==> r.value[i] == repoAt[paths[i]]
    ensures r.Failure? ==>
              exists k :: 0 <= k < |paths| && paths[k] !in repoAt && r.error == BadRepoPath(paths[k], BadPathMessage(paths[k])) &&
                          forall j :: 0 <= j < k ==> paths[j] in repoAt
  {
    if paths == [] then Success([])
    else if paths[0] !in repoAt then Failure(BadRepoPath(paths[0], BadPathMessage(paths[0])))
    else
      match ResolvePaths(paths[1..], repoAt)
      case Failure(e) =>
        assert forall j :: 1 <= j < |paths| ==> paths[j] == paths[1..][j - 1];
        Failure(e)
      case Success(rest) => Success([repoAt[paths[0]]] + rest)
  }

  /** The repositories a run covers: all of the owner's, or the configured paths. */
  function ResolveRepos(cfg: Config, platform: Platform): (r: Result<seq<Repo>, RunError>)
    ensures cfg.byOwner ==> (r.Success? <==> cfg.repoOwner in platform.reposOfOwner)
    ensures cfg.byOwner && r.Success? ==> r.value == platform.reposOfOwner[cfg.repoOwner]
    ensures !cfg.byOwner ==> (r.Success? <==> forall p :: p in cfg.repoPaths ==> p in platform.repoAt)
    ensures !cfg.byOwner && r.Failure? ==>
              r.error.BadRepoPath? && r.error.path in cfg.repoPaths && r.error.path !in platform.repoAt
  {
    if cfg.byOwner then
      if cfg.repoOwner in platform.reposOfOwner then Success(platform.reposOfOwner[cfg.repoOwner])
      else Failure(UnknownOwner(cfg.repoOwner))
    else ResolvePaths(cfg.repoPaths, platform.repoAt)
  }

  /** A pull request kept for the report, with the repository it came from. */
  datatype Match = Match(repo: Repo, pull: Pull)

  function MatchesIn(repo: Repo, ps: seq<Pull>, usernames: seq<string>): seq<Match> {
    if ps == [] then []
    else
      var last := ps[|ps| - 1];
      MatchesIn(repo, ps[..|ps| - 1], usernames) +
      (if last.authorLogin in usernames then [Match(repo, last)] else [])
  }

  /** Within one repository, the considered pull requests keep listing order:
      those of a concatenated listing are the first part's, then the second's. */
  lemma {:induction false} MatchesInAppend(repo: Repo, a: seq<Pull>, b: seq<Pull>, usernames: seq<string>)
    ensures MatchesIn(repo, a + b, usernames) == MatchesIn(repo, a, usernames) + MatchesIn(repo, b, usernames)
    decreases |b|
  {
    if b == [] {
      assert a + b == a;
    } else {
      assert (a + b)[..|a + b| - 1] == a + b[..|b| - 1];
      MatchesInAppend(repo, a, b[..|b| - 1], usernames);
    }
  }

  /** A single listed pull request is considered exactly when its author is configured. */
  lemma MatchesInSingle(repo: Repo, p: Pull, usernames: seq<string>)
    ensures MatchesIn(repo, [p], usernames) == if p.authorLogin in usernames then [Match(repo, p)] else []
  {
    assert [p][..0] == [];
  }

  /** The pull requests the report considers, repository by repository in the
      given order and pull request by pull request in listing order. */
  function MatchesAll(repos: seq<Repo>, state: PullState, usernames: seq<string>): seq<Match> {
    if repos == [] then []
    else
      var last := repos[|repos| - 1];
      MatchesAll(repos[..|repos| - 1], state, usernames) + MatchesIn(last, PullsIn(last, state), usernames)
  }

  lemma {:induction false} MatchesInMembers(repo: Repo, ps: seq<Pull>, usernames: seq<string>)
    ensures forall m :: m in MatchesIn(repo, ps, usernames) <==>
              m.repo == repo && m.pull in ps && m.pull.authorLogin in usernames
  {
    if ps != [] {
      MatchesInMembers(repo, ps[..|ps| - 1], usernames);
      assert ps == ps[..|ps| - 1] + [ps[|ps| - 1]];
    }
  }

  /** Author filter: a pull request is considered exactly when it is listed for
      one of the repositories and its author's login is a configured username. */
  lemma {:induction false} MatchesAllMembers(repos: seq<Repo>, state: PullState, usernames: seq<string>)
    ensures forall m :: m in MatchesAll(repos, state, usernames) <==>
              m.repo in repos && m.pull in PullsIn(m.repo, state) && m.pull.authorLogin in usernames
  {
    if repos != [] {
      var last := repos[|repos| - 1];
      MatchesAllMembers(repos[..|repos| - 1], state, usernames);
      MatchesInMembers(last, PullsIn(last, state), usernames);
      assert repos == repos[..|repos| - 1] + [last];
    }
  }

  /** Repository-then-pull-request order: the matches of a concatenation of
      repository lists are the matches of the first list, then of the second. */
  lemma {:induction false} MatchesAllAppend(a: seq<Repo>, b: seq<Repo>, state: PullState, usernames: seq<string>)
    ensures MatchesAll(a + b, state, usernames) == MatchesAll(a, state, usernames) + MatchesAll(b, state, usernames)
  {
    if b != [] {
      var last := b[|b| - 1];
      assert (a + b)[..|a + b| - 1] == a + b[..|b| - 1];
      MatchesAllAppend(a, b[..|b| - 1], state, usernames);
    } else {
      assert a + b == a;
    }
  }

  // ---------------------------------------------------------------------------
  // Per-pull-request outcome: a row, or a skip with its logged fault
  // ---------------------------------------------------------------------------

  /** A pull request left out of the report, as logged: its number and the fault. */
  datatype Skipped = Skipped(number: nat, fault: Fault)

  function RowsOf(ms: seq<Match>, domain: seq<string>): seq<Row> {
    if ms == [] then []
    else
      var last := ms[|ms| - 1];
      RowsOf(ms[..|ms| - 1], domain) +
      (match ToRow(last.repo, last.pull, domain)
       case Success(row) => [row]
       case Failure(_) => [])
  }

  function SkipsOf(ms: seq<Match>): seq<Skipped> {
    if ms == [] then []
    else
      var last := ms[|ms| - 1];
      SkipsOf(ms[..|ms| - 1]) +
      (match last.pull.summary
       case Success(_) => []
       case Failure(f) => [Skipped(last.pull.number, f)])
  }

  /** Every considered pull request yields a row or a skip, never both, so the
      row count is the number considered minus the number that failed. */
  lemma {:induction false} RowCount(ms: seq<Match>, domain: seq<string>)
    ensures |RowsOf(ms, domain)| == |ms| - |SkipsOf(ms)|
  {
    if ms != [] {
      RowCount(ms[..|ms| - 1], domain);
    }
  }

  /** Nothing is skipped exactly when every considered pull request has its
      summary. */
  lemma {:induction false} NoSkips(ms: seq<Match>)
    ensures (forall i :: 0 <= i < |ms| ==> ms[i].pull.summary.Success?) <==> SkipsOf(ms) == []
  {
    if ms != [] {
      var init := ms[..|ms| - 1];
      NoSkips(init);
      assert forall i :: 0 <= i < |init| ==> ms[i] == init[i];
    }
  }

  lemma {:induction false} OutcomesAppend(a: seq<Match>, b: seq<Match>, domain: seq<string>)
    ensures RowsOf(a + b, domain) == RowsOf(a, domain) + RowsOf(b, domain)
    ensures SkipsOf(a + b) == SkipsOf(a) + SkipsOf(b)
  {
    if b == [] {
      assert a + b == a;
    } else {
      assert (a + b)[..|a + b| - 1] == a + b[..|b| - 1];
      OutcomesAppend(a, b[..|b| - 1], domain);
    }
  }

  /** A failing pull request drops out on its own: the rows before and after
      it are all still emitted, in order, and its fault is logged in place. */
  lemma FailureIsSkipped(a: seq<Match>, m: Match, b: seq<Match>, domain: seq<string>)
    requires m.pull.summary.Failure?
    ensures RowsOf(a + [m] + b, domain) == RowsOf(a, domain) + RowsOf(b, domain)
    ensures SkipsOf(a + [m] + b) ==
              SkipsOf(a) + [Skipped(m.pull.number, m.pull.summary.error)] + SkipsOf(b)
  {
    OutcomesAppend(a + [m], b, domain);
    assert (a + [m])[..|a + [m]| - 1] == a;
  }

  /** The inner loop of main for one repository: keep the pull requests of
      the configured users and collect each row or log its fault. */
  method CollectRepo(repo: Repo, pulls: seq<Pull>, usernames: seq<string>, domain: seq<string>)
    returns (rows: seq<Row>, skipped: seq<Skipped>)
    ensures rows == RowsOf(MatchesIn(repo, pulls, usernames), domain)
    ensures skipped == SkipsOf(MatchesIn(repo, pulls, usernames))
  {
    rows, skipped := [], [];
    for j := 0 to |pulls|
      invariant rows == RowsOf(MatchesIn(repo, pulls[..j], usernames), domain)
      invariant skipped == SkipsOf(MatchesIn(repo, pulls[..j], usernames))
    {
      var pull := pulls[j];
      assert pulls[..j + 1][..j] == pulls[..j];
      ghost var done := MatchesIn(repo, pulls[..j], usernames);
      if pull.authorLogin in usernames {
        assert MatchesIn(repo, pulls[..j + 1], usernames) == done + [Match(repo, pull)];
        assert (done + [Match(repo, pull)])[..|done|] == done;
        match ToRow(repo, pull, domain)
        case Success(row) =>
          rows := rows + [row];
        case Failure(f) =>
          skipped := skipped + [Skipped(pull.number, f)];
      } else {
        assert MatchesIn(repo, pulls[..j + 1], usernames) == done;
      }
    }
    assert pulls[..|pulls|] == pulls;
  }

  /** The loop of main: every repository in order, and within each its pull
      requests in listing order. */
  method CollectRows(repos: seq<Repo>, state: PullState, usernames: seq<string>, domain: seq<string>)
    returns (rows: seq<Row>, skipped: seq<Skipped>)
    ensures rows == RowsOf(MatchesAll(repos, state, usernames), domain)
    ensures skipped == SkipsOf(MatchesAll(repos, state, usernames))
    ensures |rows| + |skipped| == |MatchesAll(repos, state, usernames)|
  {
    rows, skipped := [], [];
    for i := 0 to |repos|
      invariant rows == RowsOf(MatchesAll(repos[..i], state, usernames), domain)
      invariant skipped == SkipsOf(MatchesAll(repos[..i], state, usernames))
    {
      var repo := repos[i];
      var repoRows, repoSkipped := CollectRepo(repo, PullsIn(repo, state), usernames, domain);
      ghost var before := MatchesAll(repos[..i], state, usernames);
      ghost var here := MatchesIn(repo, PullsIn(repo, state), usernames);
      assert repos[..i + 1][..i] == repos[..i];
      assert MatchesAll(repos[..i + 1], state, usernames) == before + here;
      OutcomesAppend(before, here, domain);
      rows, skipped := rows + repoRows, skipped + repoSkipped;
    }
    assert repos[..|repos|] == repos;
    RowCount(MatchesAll(repos, state, usernames), domain);
  }

  // ---------------------------------------------------------------------------
  // CSV writing (csv.DictWriter with the default extrasaction='raise')
  // ---------------------------------------------------------------------------

  /** `writeheader()`: the title of every header column. */
  function HeaderLine(header: seq<Column>): seq<Value> {
    seq(|header|, j requires 0 <= j < |header| => Str(ColumnName(header[j])))
  }

  /** The columns of the row dictionary. */
  function Keys(row: Row): (ks: set<Column>)
    ensures forall c :: c in ks <==> HasColumn(row, c)
  {
    FixedColumnsAreTheBusinessColumns();
    Elems(FixedColumns) + set s | s in row.reviewCounts :: ReviewState(s)
  }

  /** Whether the header lists every column of the row. */
  predicate Fits(header: seq<Column>, row: Row) {
    && (forall c :: c in FixedColumns ==> c in header)
    && (forall s :: s in row.reviewCounts ==> ReviewState(s) in header)
  }

  /** The row's columns that the header does not list: none exactly when the
      row fits the header. */
  function ExtraColumns(header: seq<Column>, row: Row): (extra: set<Column>)
    ensures forall c :: c in extra <==> HasColumn(row, c) && c !in header
    ensures extra == {} <==> Fits(header, row)
  {
    if Fits(header, row) then Keys(row) - Elems(header)
    else
      ExtraColumnsWitness(header, row);
      Keys(row) - Elems(header)
  }

  lemma ExtraColumnsWitness(header: seq<Column>, row: Row)
    requires !Fits(header, row)
    ensures Keys(row) - Elems(header) != {}
  {
    if c :| c in FixedColumns && c !in header {
      assert c in Keys(row) - Elems(header);
    } else {
      var s :| s in row.reviewCounts && ReviewState(s) !in header;
      assert ReviewState(s) in Keys(row) - Elems(header);
    }
  }

  /** One data line: the row's cell for each header column, or the empty
      string for a column the row lacks. */
  function Line(header: seq<Column>, row: Row): (cells: seq<Value>)
    ensures |cells| == |header|
  {
    seq(|header|, j requires 0 <= j < |header| =>
      if HasColumn(row, header[j]) then Cell(row, header[j]) else Str(""))
  }

  function WriteRows(header: seq<Column>, rows: seq<Row>, first: nat): (r: Result<seq<seq<Value>>, RunError>)
    ensures r.Success? <==> forall i :: 0 <= i < |rows| ==> Fits(header, rows[i])
    ensures r.Success? ==>
              |r.value| == |rows| && forall i :: 0 <= i < |rows| ==> r.value[i] == Line(header, rows[i])
    decreases |rows|
  {
    if rows == [] then Success([])
    else if !Fits(header, rows[0]) then
      Failure(ExtraFields(first, ExtraColumns(header, rows[0])))
    else
      assert forall i :: 1 <= i < |rows| ==> rows[i] == rows[1..][i - 1];
      match WriteRows(header, rows[1..], first + 1)
      case Failure(e) => Failure(e)
      case Success(lines) => Success([Line(header, rows[0])] + lines)
  }

  /** The error names a row that does not fit, and its extra columns. */
  lemma {:induction false} WriteRowsError(header: seq<Column>, rows: seq<Row>, first: nat)
    requires WriteRows(header, rows, first).Failure?
    ensures var e := WriteRows(header, rows, first).error;
              && e.ExtraFields? && first <= e.row < first + |rows|
              && !Fits(header, rows[e.row - first])
              && e.fields == ExtraColumns(header, rows[e.row - first])
    decreases |rows|
  {
    if Fits(header, rows[0]) {
      var tail := rows[1..];
      WriteRowsError(header, tail, first + 1);
      var e := WriteRows(header, tail, first + 1).error;
      assert WriteRows(header, rows, first).error == e;
      assert rows[e.row - first] == tail[e.row - (first + 1)];
    }
  }

  /** The row the error names is the first that does not fit. */
  lemma {:induction false} WriteRowsErrorFirst(header: seq<Column>, rows: seq<Row>, first: nat)
    requires WriteRows(header, rows, first).Failure?
    ensures var e := WriteRows(header, rows, first).error;
              && e.ExtraFields? && first <= e.row
              && forall i :: 0 <= i < e.row - first && i < |rows| ==> Fits(header, rows[i])
    decreases |rows|
  {
    if Fits(header, rows[0]) {
      var tail := rows[1..];
      WriteRowsErrorFirst(header, tail, first + 1);
      var e := WriteRows(header, tail, first + 1).error;
      assert WriteRows(header, rows, first).error == e;
      forall i | 0 <= i < e.row - first && i < |rows|
        ensures Fits(header, rows[i])
      {
        if i > 0 {
          assert rows[i] == tail[i - 1];
        }
      }
    }
  }

  /** csv.DictWriter with the default extrasaction='raise': the header line,
      then one line per row in order; or the error for the first row holding a
      column outside the header. A column the row lacks is written empty. */
  function WriteCsv(header: seq<Column>, rows: seq<Row>): (r: Result<seq<seq<Value>>, RunError>)
    ensures r.Success? <==> forall i :: 0 <= i < |rows| ==> Fits(header, rows[i])
    ensures r.Success? ==>
              |r.value| == |rows| + 1 && r.value[0] == HeaderLine(header) &&
              forall i :: 0 <= i < |rows| ==> r.value[i + 1] == Line(header, rows[i])
    ensures r.Failure? ==> r.error.ExtraFields? && r.error.row < |rows|
  {
    match WriteRows(header, rows, 0)
    case Success(lines) => Success([HeaderLine(header)] + lines)
    case Failure(e) =>
      WriteRowsError(header, rows, 0);
      Failure(e)
  }

  /** The error names the first row that does not fit, with its extra columns. */
  lemma WriteCsvError(header: seq<Column>, rows: seq<Row>)
    requires WriteCsv(header, rows).Failure?
    ensures var e := WriteCsv(header, rows).error;
              && e.ExtraFields? && e.row < |rows|
              && e.fields == ExtraColumns(header, rows[e.row]) && e.fields != {}
              && forall i :: 0 <= i < e.row ==> Fits(header, rows[i])
  {
    assert WriteRows(header, rows, 0).Failure?;
    assert WriteCsv(header, rows).error == WriteRows(header, rows, 0).error;
    WriteRowsError(header, rows, 0);
    WriteRowsErrorFirst(header, rows, 0);
  }

  /** `dict(zip(header, cells))`, as a dictionary reader rebuilds a row; a
      repeated column keeps its last cell. */
  function ReadRow(header: seq<Column>, cells: seq<Value>): map<Column, Value>
    requires |cells| == |header|
  {
    if header == [] then map[]
    else ReadRow(header[..|header| - 1], cells[..|cells| - 1])[header[|header| - 1] := cells[|cells| - 1]]
  }

  /** The row as a dictionary: each of its columns with its cell. */
  function AsDict(row: Row): map<Column, Value> {
    map c | c in Keys(row) :: Cell(row, c)
  }

  lemma {:induction false} ReadLine(header: seq<Column>, row: Row)
    requires forall c :: c in header ==> HasColumn(row, c)
    ensures ReadRow(header, Line(header, row)) == map c | c in Elems(header) :: Cell(row, c)
  {
    if header != [] {
      var init := header[..|header| - 1];
      assert Line(header, row)[..|header| - 1] == Line(init, row);
      assert Elems(header) == Elems(init) + {header[|header| - 1]};
      ReadLine(init, row);
    }
  }

  lemma KeysFit(header: seq<Column>, row: Row)
    requires Keys(row) == Elems(header)
    ensures Fits(header, row)
    ensures forall c :: c in header ==> HasColumn(row, c)
    ensures Elems(header) == Keys(row)
  {
    forall c | c in FixedColumns
      ensures c in header
    {
      assert c in Keys(row);
    }
    forall s | s in row.reviewCounts
      ensures ReviewState(s) in header
    {
      assert ReviewState(s) in Keys(row);
    }
  }

  /** CSV round trip: when every row has exactly the header's columns, the
      table is written and reading each line back against the header gives
      each row's dictionary again, in the original order. */
  lemma CsvRoundTrip(header: seq<Column>, rows: seq<Row>)
    requires forall i :: 0 <= i < |rows| ==> Keys(rows[i]) == Elems(header)
    ensures WriteCsv(header, rows).Success?
    ensures |WriteCsv(header, rows).value| == |rows| + 1
    ensures forall i :: 0 <= i < |rows| ==> ReadRow(header, WriteCsv(header, rows).value[i + 1]) == AsDict(rows[i])
  {
    forall i | 0 <= i < |rows|
      ensures Fits(header, rows[i])
      ensures ReadRow(header, Line(header, rows[i])) == AsDict(rows[i])
    {
      KeysFit(header, rows[i]);
      ReadLine(header, rows[i]);
    }
    var table := WriteCsv(header, rows).value;
    assert forall i :: 0 <= i < |rows| ==> table[i + 1] == Line(header, rows[i]);
  }

  // ---------------------------------------------------------------------------
  // The whole run
  // ---------------------------------------------------------------------------

  /** The outcome of a completed run: the CSV table and the logged skips. */
  datatype Report = Report(table: seq<seq<Value>>, skipped: seq<Skipped>)

  /** main: resolve the repositories (a failure ends the run before any pull
      request is looked at), collect rows, then write them under the header. */
  method Run(cfg: Config, platform: Platform, domain: seq<string>) returns (r: Result<Report, RunError>)
    ensures ResolveRepos(cfg, platform).Failure? ==> r == Failure(ResolveRepos(cfg, platform).error)
    ensures r.Success? ==>
              && ResolveRepos(cfg, platform).Success?
              && var ms := MatchesAll(ResolveRepos(cfg, platform).value, cfg.prState, cfg.usernames);
                 && |r.value.table| == 1 + |RowsOf(ms, domain)|
                 && |r.value.table| - 1 + |r.value.skipped| == |ms|
                 && r.value.table[0] == HeaderLine(Header(domain))
                 && r.value.skipped == SkipsOf(ms)
                 && forall i :: 0 <= i < |RowsOf(ms, domain)| ==>
                      r.value.table[i + 1] == Line(Header(domain), RowsOf(ms, domain)[i])
    ensures ResolveRepos(cfg, platform).Success? ==>
              var ms := MatchesAll(ResolveRepos(cfg, platform).value, cfg.prState, cfg.usernames);
              (r.Success? <==> forall i :: 0 <= i < |RowsOf(ms, domain)| ==> Fits(Header(domain), RowsOf(ms, domain)[i]))
    ensures r.Failure? && ResolveRepos(cfg, platform).Success? ==> r.error.ExtraFields?
  {
    var resolved := ResolveRepos(cfg, platform);
    if resolved.Failure? {
      return Failure(resolved.error);
    }
    var rows, skipped := CollectRows(resolved.value, cfg.prState, cfg.usernames, domain);
    match WriteCsv(Header(domain), rows)
    case Success(table) =>
      r := Success(Report(table, skipped));
    case Failure(e) =>
      r := Failure(e);
  }
}

=== FILE: text.dfy ===
/** The few string formatting steps the scripts rely on: decimal rendering of
    integers (`f"{n}"`), right-aligned padding (`f"{n:3}"`), `sep.join(parts)`
    and `str.replace("\n", "\t")`. */
module Text {

  predicate IsDigit(ch: char) {
    '0' <= ch <= '9'
  }

  predicate AllDigits(s: string) {
    forall i :: 0 <= i < |s| ==> IsDigit(s[i])
  }

  function DigitChar(d: nat): char
    requires d < 10
  {
    ('0' as int + d) as char
  }

  function DigitValue(ch: char): nat
    requires IsDigit(ch)
  {
    ch as int - '0' as int
  }

  /** Decimal rendering of a non-negative integer, as Python's `str(n)`. */
  function NatToString(n: nat): (s: string)
    ensures |s| >= 1 && AllDigits(s)
    ensures |s| > 1 ==> s[0] != '0'
    decreases n
  {
    if n < 10 then [DigitChar(n)] else NatToString(n / 10) + [DigitChar(n % 10)]
  }

  /** Reading a string of decimal digits back as a number, as Python's `int(s)`. */
  function ParseDecimal(s: string): nat
    requires AllDigits(s)
  {
    if s == [] then 0 else 10 * ParseDecimal(s[..|s| - 1]) + DigitValue(s[|s| - 1])
  }

  /** Rendering a number and reading it back gives the number. */
  lemma {:induction false} ParseNatToString(n: nat)
    ensures ParseDecimal(NatToString(n)) == n
  {
    if n >= 10 {
      var s := NatToString(n / 10);
      ParseNatToString(n / 10);
      assert (s + [DigitChar(n % 10)])[..|s|] == s;
    }
  }

  /** Different numbers never render to the same text. */
  lemma NatToStringInjective(a: nat, b: nat)
    requires NatToString(a) == NatToString(b)
    ensures a == b
  {
    ParseNatToString(a);
    ParseNatToString(b);
  }

  function Spaces(k: nat): (r: string)
    ensures |r| == k && forall i :: 0 <= i < k ==> r[i] == ' '
  {
    if k == 0 then [] else [' '] + Spaces(k - 1)
  }

  /** Right alignment in a field of the given width, as the format spec
      `{value:width}` does for numbers: spaces on the left, never truncated. */
  function PadLeft(s: string, width: nat): (r: string)
    ensures |r| == if |s| >= width then |s| else width
    ensures r[|r| - |s|..] == s
    ensures forall i :: 0 <= i < |r| - |s| ==> r[i] == ' '
  {
    if |s| >= width then s else Spaces(width - |s|) + s
  }

  /** `s.replace("\n", "\t")`. */
  function NewlinesToTabs(s: string): (r: string)
    ensures |r| == |s|
    ensures '\n' !in r
    ensures forall i :: 0 <= i < |s| && s[i] != '\n' ==> r[i] == s[i]
    ensures forall i :: 0 <= i < |s| && s[i] == '\n' ==> r[i] == '\t'
  {
    if s == [] then []
    else (if s[0] == '\n' then ['\t'] else [s[0]]) + NewlinesToTabs(s[1..])
  }

  function TotalLength(parts: seq<string>): nat {
    if parts == [] then 0 else TotalLength(parts[..|parts| - 1]) + |parts[|parts| - 1]|
  }

  /** `sep.join(parts)`: the parts in order with the separator between
      neighbours; the empty list joins to the empty string. */
  function Join(parts: seq<string>, sep: string): (r: string)
    ensures parts == [] ==> r == []
    ensures |parts| == 1 ==> r == parts[0]
    ensures parts != [] ==> |r| >= |parts[|parts| - 1]| && r[|r| - |parts[|parts| - 1]|..] == parts[|parts| - 1]
  {
    if parts == [] then []
    else if |parts| == 1 then parts[0]
    else Join(parts[..|parts| - 1], sep) + sep + parts[|parts| - 1]
  }

  /** Joining four parts puts the separator between each neighbouring pair. */
  lemma JoinFour(a: string, b: string, c: string, d: string, sep: string)
    ensures Join([a, b, c, d], sep) == a + sep + b + sep + c + sep + d
  {
    var parts := [a, b, c, d];
    assert parts[..3] == [a, b, c];
    assert [a, b, c][..2] == [a, b];
    assert [a, b][..1] == [a];
    assert Join([a, b], sep) == a + sep + b;
    assert Join([a, b, c], sep) == a + sep + b + sep + c;
  }

  /** The joined length: all the parts plus one separator per neighbouring pair. */
  lemma {:induction false} JoinLength(parts: seq<string>, sep: string)
    requires parts != []
    ensures |Join(parts, sep)| == TotalLength(parts) + |sep| * (|parts| - 1)
  {
    if |parts| >= 2 {
      var init := parts[..|parts| - 1];
      JoinLength(init, sep);
      calc {
        |Join(parts, sep)|;
        |Join(init, sep)| + |sep| + |parts[|parts| - 1]|;
        TotalLength(init) + |sep| * (|init| - 1) + |sep| + |parts[|parts| - 1]|;
        { assert |sep| * (|init| - 1) + |sep| == |sep| * |init|; }
        TotalLength(init) + |parts[|parts| - 1]| + |sep| * |init|;
        TotalLength(parts) + |sep| * (|parts| - 1);
      }
    }
  }

  /** A join with a non-empty separator is empty only for no parts, or for a
      single empty part. */
  lemma JoinIsEmpty(parts: seq<string>, sep: string)
    requires sep != []
    ensures Join(parts, sep) == [] <==> parts == [] || parts == [[]]
  {
    if |parts| == 1 {
      assert parts == [parts[0]];
    } else if |parts| >= 2 {
      var r := Join(parts, sep);
      assert r == Join(parts[..|parts| - 1], sep) + sep + parts[|parts| - 1];
      assert |r| >= |sep|;
      var single: seq<string> := [[]];
      assert |single| == 1 && parts != single;
    }
  }
}

=== FILE: wrappers.dfy ===
/** Failure-carrying values used across the model: an optional value and a
    success-or-error result standing in for Python's None and exceptions. */
module Wrappers {

  datatype Option<+T> = None | Some(value: T)

  datatype Result<+R, +E> = Success(value: R) | Failure(error: E)
}
